=== FILE: README.md ===
# Udemy course and review scraper — a Dafny model

Two Python scripts, `udemine.py` and `udemycourses.py`, crawl Udemy's search
results for a topic. They filter the results by a category and by English, then
walk the results pages one by one. On each page they visit every course link not
seen before. A course passes only if it has at least 500 students, at least 50
ratings and English as its language. For each course that passes, they keep a
course record and the rows of its reviews.

This project models the decision logic of both scripts over abstract page
observations. The browser is replaced by data: a course page is the text of
three elements, a results page is its links plus its pagination controls, and
the review list is four text columns. What a click does is an `Attempt`, and
what processing a visited link comes to (a scraped course, a course passed
over, or an exception from `course_scraper` or from `review_scraper` after it)
is a function parameter of the run; Crawl.ProcessLink builds it from the
requirement check, the page scrape and the "show more" clicks.
Each module follows one part of the program:

- `Text`: the parts of Python's string API the scripts use (`split`, `replace`, slicing, `join`).
- `Counts`: `int(text.replace(",", ""))`, and the comma-grouped numbers the site prints.
- `Eligibility`: the minimum-requirement check of `course_scraper` in each script, including both page layouts.
- `Pagination`: `get_nextpage` and the reading of one results page.
- `Query`: argument validation and the lookup of the category and English checkboxes.
- `Courses`: how the course record is shaped, including the instructor statistics and the lecture list.
- `Reviews`: the "show more" loop and the review rows.
- `Crawl`: the page loop and the link loop, the visited-list bookkeeping, and the entry point `scraper`.

`Outcomes` holds `Option`, `Result` and `Script` (which of the two scripts is meant).
Python exceptions that escape to the caller become `Failure`/`Abort` values or the `Raised` outcome of a link, not preconditions. The exceptions this does not cover are listed under "## Left out": the `ValueError` udemycourses.py raises on an empty last results page (both scripts' runs use the corrected listing step, see "## Findings"), the `index('Language')` look-up, and `None[8:]` on a review without an `aria-label`.

## Model

| member | source | states |
|---|---|---|
| Text.BeforeSeparator | udemine.py:251 | `split(" ", 1)[0]` of a word followed by a space and more text gives back that word |
| Text.FieldsOfJoin | udemine.py:270 | `str.split()` of non-empty, space-free words joined by single spaces gives back the words |
| Text.WithoutMembers | udemine.py:273 | `replace(",", "")` keeps every character except commas and adds none |
| Text.WithoutAppend | udemycourses.py:206 | removing commas distributes over concatenation |
| Counts.ParseDecimal | udemine.py:273 | `int(text.replace(",", ""))` of the decimal numeral of `n` is `n` |
| Counts.ParseCountIsDecimal | udemine.py:273 | conversely, when the conversion succeeds with value `n`, the text without commas is the decimal numeral of `n` with leading zeros; together with Counts.ParseDecimal this pins down which texts convert and to what |
| Counts.NumeralIsPaddedDecimal | udemycourses.py:206 | every non-empty run of digits is the decimal numeral of its value preceded by zeros |
| Counts.ParseGrouped | udemycourses.py:206 | a count written with thousands separators, as the site prints it, parses back to the same number |
| Eligibility.ReviewCountToken | udemine.py:265-271 | the review count is read only when the line has enough words (original layout: at least two words; revised layout: a non-empty last line), and the token read is the second word minus its first character, or the first word of the last line minus its first character |
| Eligibility.OriginalRatingCount | udemine.py:269-270 | for an original rating line "score (count …", the token read is exactly `count` |
| Eligibility.RevisedRatingCount | udemine.py:265-267 | for a multi-line rating whose last line is "(count …", the token read is exactly `count` |
| Eligibility.CheckUdemine | udemine.py:248-281 | a missing enrollment or rating element skips the course; a missing language element, or a rating line too short to hold a count, raises; otherwise the thresholds decide, and a course that proceeds does so in the layout chosen by its rating line |
| Eligibility.CheckUdemyCourses | udemycourses.py:195-207 | a missing enrollment element raises; a missing rating element skips; a rating line with fewer than two words raises, and then a missing language element raises; otherwise the thresholds decide, and a course that proceeds does so in the original layout |
| Eligibility.CheckProceedIff | udemine.py:273 | in either script a course proceeds if and only if all three elements are readable and the course meets all three thresholds; it then proceeds in its page's layout |
| Eligibility.CheckAbortIff | udemycourses.py:195-207 | in either script the requirement check raises exactly under an independent listing of the failing look-ups and conversions, in the order the code reaches them |
| Eligibility.Threshold | udemine.py:273 | an enrollment that does not convert raises; below 500 the course is skipped before the review count is converted; then a review count that does not convert raises; otherwise the course proceeds exactly when it meets the three thresholds |
| Eligibility.LowEnrollmentSkips | udemycourses.py:206 | the `or` short-circuits: an enrollment below 500 skips the course before the review count is converted |
| Eligibility.SamplePageVerdict | udemine.py:250-273 | a well-formed page with site-formatted counts is decided by the thresholds alone, in both scripts |
| Eligibility.ThresholdBoundaries | udemycourses.py:206-207 | 499 students is skipped; 500 students with 50 ratings proceeds; 49 ratings is skipped; a non-English course is skipped |
| Pagination.NextPage | udemine.py:159-179 | there is no next page exactly when the next anchor is missing or the last pagination item has a non-empty class; otherwise the anchor's href is returned |
| Pagination.NextPageRefinesSimple | udemycourses.py:174-179 | the udemine.py rule agrees with the plain anchor rule of udemycourses.py unless the last item is marked, and in that case it stops |
| Pagination.NextPageSimple | udemycourses.py:174-179 | the cursor is the '+1' anchor's href, and `None` when there is no anchor; the loop continues exactly when that anchor has a truthy href |
| Pagination.ListingStep | udemine.py:201-237 | a results page gives its own links; a cursor, when present, is the next anchor's href; the crawl continues exactly when the anchor exists with a truthy href and, in udemine.py, the last pagination item is unmarked |
| Pagination.ListingStepAsWritten | udemycourses.py:160-170 | the code as written fails to unpack exactly on a page with no course links and no next anchor at all; an anchor without an href falls through and ends the run cleanly |
| Pagination.EmptyLastPageRaises | udemycourses.py:76-79 | on a page with no links and no next anchor the written code raises, while the corrected step returns no links and no cursor; with an anchor that has no href the written code returns no links and no cursor |
| Pagination.ListingStepAgrees | udemycourses.py:151-183 | on every page where the written code returns, it returns what the corrected step returns |
| Query.Validate | udemine.py:35-45 | accepts exactly a string search term, a string category, and either a list or a falsy iterable of previous links; each failure gives its own error in source order; the seed is the given list |
| Query.IndexOf | udemycourses.py:106 | `list.index` returns the first position holding the target, and fails exactly when the target is absent |
| Query.FindCategory | udemine.py:125-132 | returns the first label whose text before "(" equals the category; fails exactly when no label matches; in udemine.py the failure carries the label list |
| Query.CategoryErrorListsLabels | udemine.py:128-132 | the udemine.py error message contains every label name offered |
| Query.FindLanguage | udemycourses.py:122-124 | returns the first position whose label name is "English"; fails exactly when no label has that name, with the not-listed error |
| Query.ApplyFilters | udemycourses.py:87-130 | succeeds exactly when both the category and English are found, and then returns their first positions; a missing category fails with its own error before English is looked up; a missing English fails with the not-listed error |
| Courses.Stride | udemine.py:534-537 | `s[k::4]` has `(len - k + 3) / 4` entries, and entry `i` is element `k + 4i` |
| Courses.SplitStats | udemine.py:525-543 | several instructors give four columns; a single instructor gives the first four values; no instructor, or one instructor with fewer than four values, raises; nothing is lost |
| Courses.GroupSplitIsDeinterleaving | udemycourses.py:298-301 | value `j` of the flat list is entry `j / 4` of column `j % 4`, and column lengths decrease by at most one |
| Courses.GroupColumnsAligned | udemine.py:610-613 | with four values per instructor, every column has one entry per instructor |
| Courses.InstructorName | udemine.py:528-541 | no instructor raises; one instructor gives their own name; several give their names joined by " -&- " |
| Courses.InstructorNameListsAll | udemycourses.py:278-281 | every instructor's name occurs in the joined instructor name |
| Courses.Zip | udemine.py:514-519 | `zip` pairs position by position up to the shorter list |
| Courses.UnzipZip | udemycourses.py:266-268 | the lecture breakdown read back gives the titles and the durations, each cut to the shorter length |
| Courses.ShapeCourse | udemine.py:600-622 | a record exists exactly when the instructor lookups cannot raise; it carries the link, the instructor name and statistics as those lookups give them, and the lectures as the titles zipped with the durations |
| Reviews.ShowMore | udemine.py:291-300 | the number of "show more" clicks is at most the cap and at most the attempts, and every counted attempt was a successful click |
| Reviews.ExpandReviews | udemycourses.py:332-341 | the loop makes at most the script's cap of clicks (5 in udemine.py, 10 in udemycourses.py); it raises exactly when the reference count does, and otherwise makes that many clicks; it stops below the cap only at a missing or stale button |
| Reviews.RatingText | udemine.py:322 | `aria_label[8:]` is the label minus its first eight characters, and empty when the label is no longer |
| Reviews.RatingTextOfLabel | udemycourses.py:363 | a "Rating: x" label yields exactly `x` |
| Reviews.Rows | udemine.py:314-328 | the five-way `zip` yields as many rows as the shortest column |
| Reviews.RowsAt | udemycourses.py:369 | row `i` is made of entry `i` of each column, plus the course link |
| Reviews.RowsUnzip | udemine.py:328 | reading the rows back column by column gives each page column cut to the row count |
| Reviews.AlignedColumnsKeepEveryReview | udemycourses.py:355-369 | when the columns have equal length, no review is dropped |
| Crawl.Visit | udemine.py:190-196 | a visited link is remembered; it becomes a course exactly when accepted; a rejected link adds no course and no review |
| Crawl.Navigate | udemine.py:182-198 | the visited list only grows, and every link of the page ends up in it |
| Crawl.NavigateAddsFresh | udemycourses.py:133-148 | one pass appends each new link of the page exactly once, and only links that were not visited before |
| Crawl.NavigateAddsRecords | udemine.py:189-196 | one pass scrapes exactly the accepted links among those it appends, and collects exactly their reviews |
| Crawl.NavigateVisited | udemycourses.py:141 | a page whose links were all visited changes nothing |
| Crawl.NavigateAppend | udemine.py:85-92 | going through two pages one after the other is going through their concatenated links |
| Crawl.NavigateConsistent | udemine.py:182-198 | one page preserves the bookkeeping invariant |
| Crawl.ConsistentRecords | udemine.py:189-196 | under the invariant, courses are unique, visited, not in the seed, and accepted; every review row belongs to a scraped course; visited = seed + rejected + courses in count |
| Crawl.Crawl | udemine.py:77-92 | the run continues past page `i` only if that page's cursor is truthy; a finished run stopped at a falsy cursor; an unfinished one read every page |
| Crawl.CrawlIsNavigate | udemycourses.py:72-79 | a run is one pass over the concatenated links of the pages it read |
| Crawl.CrawlStopIgnoresState | udemine.py:89-92 | where a run stops depends only on the pagination, not on what was scraped |
| Crawl.EmptyLastPageEndsCrawl | udemycourses.py:165-170 | with the corrected step, a page with no links and no next anchor, reached by following truthy cursors, ends the run cleanly right there, on the page where the written code raises; the run has then gone through the links of the pages before it |
| Crawl.Scrape | udemine.py:14-98 | invalid arguments fail with the validation error; valid arguments succeed exactly when both filters are found, a filter failure is returned as is, and a successful result is the crawl started from the caller's links |
| Crawl.CrawlFromSeedConsistent | udemycourses.py:72-79 | a run started from the caller's links keeps them in front of the visited list, keeps the bookkeeping invariant, and visits every link of every page it read |
| Crawl.ScrapeConsistent | udemine.py:45 | valid arguments whose filters are found give a successful run; it keeps the caller's links at the front of the visited list, and visits every link of every page it read, with the invariant holding |
| Crawl.ScrapeIdempotent | udemine.py:189-190 | after a successful run, re-running with the first run's visited list as previous links reads the same pages and scrapes nothing |
| Crawl.CourseScraper | udemine.py:240-281 | `course_scraper` raises exactly when the requirement check raises, or the requirement check passes and scraping the page raises; it returns `True` only for a course that passes it; a skipped course gives `False` |
| Crawl.ProcessedAreFresh | udemine.py:189-196 | the links a run processes were read from its pages, were not among the caller's links, and each is processed once |
| Crawl.ProcessLink | udemine.py:189-196 | processing a link raises exactly when the requirement check raises, or the course passes it and then scraping its page raises, or its "show more" loop meets a click that raises (udemine.py:291-300); it yields a scraped course only when the check passes, the page scrape returns `True` and the loop ends normally |
| Crawl.Run | udemycourses.py:72-84 | invalid arguments or a missing filter end the run with that error; a run with no result names a processed course that raised (the empty-last-page raise of udemycourses.py is not among these, see "## Left out"); a run with a result is the `Scrape` run and no processed course raised |
| Crawl.RunRaisesAtFirst | udemycourses.py:140-146 | a run ends in an exception exactly when some processed course raises, and the course named is the first such one in processing order |

## Left out

- The browser itself is not modelled: Selenium look-ups, waits, clicks, scrolling, `time.sleep` and the JavaScript click fallbacks. Each look-up is its result: the text, `None`, or an `Attempt`.
- The DataFrame and record plumbing is left out: pandas, tqdm and the progress `print`s. Rows and course links are kept as sequences.
- Course fields that are plain reads are not modelled. These are `title`, `topics`, `summary` (with its `[:-3]` trimming), `number_of_lectures` and `total_video_duration` (with the curriculum-stats slicing), `original_price` and `instructor_bio`. They copy text. Where scraping a page after the requirement check returns `False` (a missing curriculum header, udemine.py:501-502 and 577-578) or raises (udemycourses.py:239-241), that is the `scraped` outcome given to Crawl.CourseScraper.
- `overlay_filter_add` (udemine.py:427-470) is not modelled. udemine.py uses it instead of `panel_filter_add` when the results page shows a filter button (udemine.py:66-73). It matches labels by substring. When nothing matches, it carries on with an unbound index (udemine.py:446-453), which is a defect and not a behaviour to specify. Query.ApplyFilters models the panel variant only.
- `expose_filter_menu` (udemine.py:414-424) is left out. So is the `index('Language')` look-up of udemycourses.py:114-116. Both search the collapsed toggles (`aria-expanded='false'`) for one whose text is exactly the filter name; if the Language panel were already open, the look-up would raise. The model assumes a collapsed Language toggle is found and clicked.
- `expand_section` and `expand_toggle` (udemine.py:331-359) are left out. They only click, and what they reveal is taken as given. `expand_section` also calls a method that does not exist (udemine.py:343).
- The "see more" clicks on long reviews (udemine.py:302-310) are left out; the review texts are taken as given.
- Counts.ParseCount accepts only digits and commas. Python's `int` also takes surrounding whitespace, a sign, underscores between digits and non-ASCII digits. The site's counts never contain these, so such inputs take the error path here.
- Crawl.Crawl is given the observations of one course page as functions of the link (`accept`, `observe`). An exception from `course_scraper` is modelled by Crawl.Run, which stops at the first processed course that raises and returns no result; it does not model the partial DataFrames, which the Python code discards as well.
- Reviews.RatingText assumes every star element has an `aria-label`. If one is missing, Python's `None[8:]` raises; Crawl.ProcessLink does not derive that exception, though a `Raised` outcome given to Crawl.Run stands for it as for any other.
- Crawl.Run and Crawl.Crawl use the corrected listing step Pagination.ListingStep for both scripts. So for udemycourses.py a run that reaches a results page with no visible course link and no next-page anchor ends with a result, where the code as written raises `ValueError` at udemycourses.py:77. That defect is recorded under "## Findings" and exhibited by Pagination.ListingStepAsWritten; it is not propagated into the run.
- Crawl.Crawl reads a finite list of pages; when it runs out while the cursor is still truthy, the run is reported as unfinished rather than continued.
- Crawl.ConsistentRecords is stated for the links a run adds. The caller's `previous_links` may contain duplicates, and the model keeps them as given.
- Courses.GroupSplitIsDeinterleaving states only that column lengths differ by at most one. Equal lengths, one entry per instructor, are proved by Courses.GroupColumnsAligned when the statistics list has four values per instructor; otherwise the later columns are shorter, as the code computes.
- Eligibility.CheckUdemine raises on a rating line with too few words, where a reading of the layouts might expect an "unrecognized layout" skip. The code has no such branch, and the model follows the code.

## Findings

| source | as written | input that shows it | evidently intended | confidence | as-written member | corrected member |
|---|---|---|---|---|---|---|
| udemycourses.py:165-170 | on a results page with no course links and no next-page anchor, `listings_page_iterator` returns the pair `(df, courses)`; the loop at line 77 unpacks four values and raises `ValueError` | a last results page that shows no course and has no next anchor | the run ends cleanly, as udemine.py's version does by returning the four values with no next page | not executed | Pagination.ListingStepAsWritten | Crawl.EmptyLastPageEndsCrawl |

=== FILE: counts.dfy ===
/**
  The conversion `int(text.replace(",", ""))` the scraper applies to the
  enrollment and review counts shown on a course page. Only strings of ASCII
  digits and commas are accepted; every other text is the `ValueError` path.
 */
module Counts {
  import opened Outcomes
  import Text
  import Seqs

  predicate IsDigit(c: char) {
    '0' <= c <= '9'
  }

  predicate AllDigits(s: string) {
    forall i :: 0 <= i < |s| ==> IsDigit(s[i])
  }

  function DigitValue(c: char): nat
    requires IsDigit(c)
  {
    (c as int) - ('0' as int)
  }

  function Digit(d: nat): (c: char)
    requires d < 10
    ensures IsDigit(c) && DigitValue(c) == d
  {
    (('0' as int) + d) as char
  }

  /** The value of a decimal numeral, most significant digit first. */
  function Value(s: string): nat
    requires AllDigits(s)
  {
    if s == [] then 0 else Value(s[..|s| - 1]) * 10 + DigitValue(s[|s| - 1])
  }

  function Pow10(k: nat): (r: nat)
    ensures r >= 1
  {
    if k == 0 then 1 else 10 * Pow10(k - 1)
  }

  /**
    `int(text.replace(",", ""))`: `None` is the `ValueError` Python raises,
    either because nothing but commas was left or because a character is not
    a digit.
   */
  function ParseCount(text: string): (r: Option<nat>)
    ensures r.Some? <==> Text.Without(text, ',') != [] && AllDigits(Text.Without(text, ','))
    ensures r.Some? ==> r.value == Value(Text.Without(text, ','))
  {
    var digits := Text.Without(text, ',');
    if digits != [] && AllDigits(digits) then Some(Value(digits)) else None
  }

  /** The shortest decimal numeral of `n`. */
  function Decimal(n: nat): (r: string)
    ensures r != [] && AllDigits(r)
  {
    if n < 10 then [Digit(n)] else Decimal(n / 10) + [Digit(n % 10)]
  }

  /** `n` written with a comma between groups of three digits, as the site shows counts ("1,234"). */
  function Grouped(n: nat): (r: string)
  {
    if n < 1000 then Decimal(n) else Grouped(n / 1000) + "," + Pad3(n % 1000)
  }

  lemma {:induction false} GroupedChars(n: nat)
    ensures forall i :: 0 <= i < |Grouped(n)| ==> IsDigit(Grouped(n)[i]) || Grouped(n)[i] == ','
  {
    if n >= 1000 {
      GroupedChars(n / 1000);
      var g := Grouped(n);
      var head := Grouped(n / 1000);
      assert g == head + "," + Pad3(n % 1000);
      forall i | 0 <= i < |g| ensures IsDigit(g[i]) || g[i] == ',' {
        if i < |head| { assert g[i] == head[i]; }
      }
    }
  }

  function Pad3(k: nat): (r: string)
    requires k < 1000
  {
    [Digit(k / 10 / 10), Digit(k / 10 % 10), Digit(k % 10)]
  }

  lemma DigitsAppend(a: string, b: string)
    requires AllDigits(a) && AllDigits(b)
    ensures AllDigits(a + b)
  {
    var ab := a + b;
    forall i | 0 <= i < |ab| ensures IsDigit(ab[i]) {
      if i < |a| { assert ab[i] == a[i]; } else { assert ab[i] == b[i - |a|]; }
    }
  }

  lemma Shifted(x: int, y: int, p: int, d: int)
    ensures (x * p + y) * 10 + d == x * (10 * p) + (y * 10 + d)
  {
  }

  lemma {:induction false} ValueAppend(a: string, b: string)
    requires AllDigits(a) && AllDigits(b)
    ensures AllDigits(a + b)
    ensures Value(a + b) == Value(a) * Pow10(|b|) + Value(b)
    decreases |b|
  {
    var ab := a + b;
    DigitsAppend(a, b);
    if b == [] {
      assert ab == a;
    } else {
      var b' := b[..|b| - 1];
      var last := b[|b| - 1];
      assert ab[..|ab| - 1] == a + b';
      assert ab[|ab| - 1] == last;
      ValueAppend(a, b');
      assert Value(ab) == Value(a + b') * 10 + DigitValue(last);
      assert Value(b) == Value(b') * 10 + DigitValue(last);
      assert Pow10(|b|) == 10 * Pow10(|b'|);
      Shifted(Value(a), Value(b'), Pow10(|b'|), DigitValue(last));
    }
  }

  lemma {:induction false} DecimalValue(n: nat)
    ensures Value(Decimal(n)) == n
  {
    if n >= 10 {
      var s := Decimal(n);
      assert s[..|s| - 1] == Decimal(n / 10);
      DecimalValue(n / 10);
    } else {
      assert Value([Digit(n)]) == Value([]) * 10 + DigitValue(Digit(n));
    }
  }

  lemma ValueOfThree(x: char, y: char, z: char)
    requires IsDigit(x) && IsDigit(y) && IsDigit(z)
    ensures AllDigits([x, y, z])
    ensures Value([x, y, z]) == (DigitValue(x) * 10 + DigitValue(y)) * 10 + DigitValue(z)
  {
    assert [x, y, z][..2] == [x, y];
    assert [x, y][..1] == [x];
    assert [x][..0] == [];
    assert Value([x]) == DigitValue(x);
    assert Value([x, y]) == Value([x]) * 10 + DigitValue(y);
    assert Value([x, y, z]) == Value([x, y]) * 10 + DigitValue(z);
  }

  lemma Pad3Value(k: nat)
    requires k < 1000
    ensures AllDigits(Pad3(k)) && Value(Pad3(k)) == k
  {
    var q := k / 10;
    ValueOfThree(Digit(q / 10), Digit(q % 10), Digit(k % 10));
    assert (q / 10) * 10 + q % 10 == q;
    assert q * 10 + k % 10 == k;
  }

  /** The grouped rendering of `n` is a digit string with value `n` once its commas are removed. */
  lemma GroupedStep(n: nat)
    requires n >= 1000
    ensures Text.Without(Grouped(n), ',') == Text.Without(Grouped(n / 1000), ',') + Pad3(n % 1000)
  {
    var head := Grouped(n / 1000);
    var tail := Pad3(n % 1000);
    assert Grouped(n) == (head + ",") + tail;
    Text.WithoutAppend(head + ",", tail, ',');
    Text.WithoutAppend(head, ",", ',');
    assert Text.Without(",", ',') == [];
    assert Text.Without(head + ",", ',') == Text.Without(head, ',') by {
      assert Text.Without(head, ',') + [] == Text.Without(head, ',');
    }
    assert Text.Without(tail, ',') == tail by {
      assert ',' !in tail;
    }
  }

  lemma {:induction false} GroupedDigits(n: nat)
    ensures AllDigits(Text.Without(Grouped(n), ','))
    ensures Text.Without(Grouped(n), ',') != []
    ensures Value(Text.Without(Grouped(n), ',')) == n
  {
    if n < 1000 {
      DecimalValue(n);
    } else {
      GroupedDigits(n / 1000);
      GroupedStep(n);
      Pad3Value(n % 1000);
      var digits := Text.Without(Grouped(n / 1000), ',');
      var tail := Pad3(n % 1000);
      ValueAppend(digits, tail);
      assert Pow10(3) == 1000;
      assert Value(digits + tail) == (n / 1000) * 1000 + n % 1000;
    }
  }

  /** Parsing a plain numeral inverts `Decimal`. */
  lemma ParseDecimal(n: nat)
    ensures ParseCount(Decimal(n)) == Some(n)
  {
    assert Text.Without(Decimal(n), ',') == Decimal(n);
    DecimalValue(n);
  }

  /** `k` zero digits. */
  function Zeros(k: nat): (r: string)
    ensures |r| == k && AllDigits(r) && Value(r) == 0
  {
    if k == 0 then [] else Zeros(k - 1) + "0"
  }

  /** A digit is the numeral of its own value. */
  lemma DigitOfValue(c: char)
    requires IsDigit(c)
    ensures Digit(DigitValue(c)) == c
  {
  }

  /**
    Every numeral is the shortest numeral of its value behind leading zeros:
    `Decimal` is the only way to write a value, up to zero padding.
   */
  lemma {:induction false} NumeralIsPaddedDecimal(s: string)
    requires s != [] && AllDigits(s)
    ensures |Decimal(Value(s))| <= |s|
    ensures s == Zeros(|s| - |Decimal(Value(s))|) + Decimal(Value(s))
  {
    var c := s[|s| - 1];
    var init := s[..|s| - 1];
    assert s == init + [c];
    DigitOfValue(c);
    assert Value(s) == Value(init) * 10 + DigitValue(c);
    if init == [] {
      assert Value(s) == DigitValue(c);
      assert Decimal(Value(s)) == [c];
      assert Zeros(0) + [c] == [c];
    } else {
      NumeralIsPaddedDecimal(init);
      var v := Value(init);
      var pad := |init| - |Decimal(v)|;
      if v == 0 {
        assert Decimal(v) == "0";
        assert Zeros(pad) + "0" == Zeros(pad + 1);
        assert Decimal(Value(s)) == [c];
        assert s == Zeros(pad + 1) + [c];
      } else {
        assert Value(s) >= 10;
        assert Value(s) / 10 == v && Value(s) % 10 == DigitValue(c);
        assert Decimal(Value(s)) == Decimal(v) + [c];
        Seqs.Associative(Zeros(pad), Decimal(v), [c]);
      }
    }
  }

  /**
    The converse of `ParseDecimal`: whatever `int` accepts, once the commas are
    gone, is the value's own numeral, possibly zero-padded.
   */
  lemma ParseCountIsDecimal(text: string, n: nat)
    requires ParseCount(text) == Some(n)
    ensures var digits := Text.Without(text, ',');
      |Decimal(n)| <= |digits| && digits == Zeros(|digits| - |Decimal(n)|) + Decimal(n)
  {
    NumeralIsPaddedDecimal(Text.Without(text, ','));
  }

  /** Parsing a count with thousands separators inverts `Grouped`. */
  lemma ParseGrouped(n: nat)
    ensures ParseCount(Grouped(n)) == Some(n)
  {
    GroupedDigits(n);
  }
}

=== FILE: courses.dfy ===
/**
  Shaping the course record (`scrape_original`, `scrape_revised` and the
  scraping half of udemycourses.py's `course_scraper`): the instructor
  statistics, which come as one flat list of four values per instructor, and
  the lecture breakdown.
 */
module Courses {
  import opened Outcomes
  import Text

  /** Python's `s[k::4]`: every fourth element, starting at `k`. */
  function Stride<T>(s: seq<T>, k: nat): (r: seq<T>)
    ensures |r| == if k < |s| then (|s| - k + 3) / 4 else 0
    ensures forall i :: 0 <= i < |r| ==> k + 4 * i < |s| && r[i] == s[k + 4 * i]
    decreases |s| - k
  {
    if k >= |s| then [] else [s[k]] + Stride(s, k + 4)
  }

  /**
    The instructor statistics of a course, tagged by shape: one instructor's
    rating, review, student and course counts as four scalars, or, for several
    instructors, the same four as parallel lists.
   */
  datatype Stats =
    | Single(rating: string, totalReviews: string, totalStudents: string, totalCourses: string)
    | Group(groupRatings: seq<string>, groupReviews: seq<string>, groupStudents: seq<string>, groupCourses: seq<string>)

  /**
    Splitting the flat statistics list for `instructors` instructors. `None` is
    the `IndexError` of a page with no instructor, or of a single instructor
    with fewer than four values.
   */
  function SplitStats(instructors: nat, stats: seq<string>): (r: Option<Stats>)
    ensures r.None? <==> instructors == 0 || (instructors == 1 && |stats| < 4)
    ensures r.Some? ==> (r.value.Group? <==> instructors > 1)
    ensures r.Some? && r.value.Single? ==>
      [r.value.rating, r.value.totalReviews, r.value.totalStudents, r.value.totalCourses] == stats[..4]
    ensures r.Some? && r.value.Group? ==>
      |r.value.groupRatings| + |r.value.groupReviews| + |r.value.groupStudents| + |r.value.groupCourses| == |stats|
  {
    if instructors > 1 then Some(Group(Stride(stats, 0), Stride(stats, 1), Stride(stats, 2), Stride(stats, 3)))
    else if instructors == 0 || |stats| < 4 then None
    else Some(Single(stats[0], stats[1], stats[2], stats[3]))
  }

  /** The four columns of a group, in the order the page lists each instructor's values. */
  function Column(g: Stats, k: nat): seq<string>
    requires g.Group? && k < 4
  {
    if k == 0 then g.groupRatings
    else if k == 1 then g.groupReviews
    else if k == 2 then g.groupStudents
    else g.groupCourses
  }

  lemma StrideAt<T>(s: seq<T>, j: nat)
    requires j < |s|
    ensures j / 4 < |Stride(s, j % 4)| && Stride(s, j % 4)[j / 4] == s[j]
  {
    var k := j % 4;
    var i := j / 4;
    assert j == 4 * i + k;
    assert |Stride(s, k)| == (|s| - k + 3) / 4;
  }

  lemma StrideLengths<T>(s: seq<T>)
    ensures |Stride(s, 0)| + |Stride(s, 1)| + |Stride(s, 2)| + |Stride(s, 3)| == |s|
    ensures |Stride(s, 3)| <= |Stride(s, 2)| <= |Stride(s, 1)| <= |Stride(s, 0)| <= |Stride(s, 3)| + 1
  {
  }

  lemma ColumnIsStride(instructors: nat, stats: seq<string>, k: nat)
    requires instructors > 1 && k < 4
    ensures Column(SplitStats(instructors, stats).value, k) == Stride(stats, k)
  {
    var g := Group(Stride(stats, 0), Stride(stats, 1), Stride(stats, 2), Stride(stats, 3));
    assert SplitStats(instructors, stats) == Some(g);
  }

  /**
    The split loses and invents nothing: value `j` of the flat list is entry
    `j / 4` of column `j % 4`, and the columns differ in length by at most one,
    the earlier ones being the longer.
   */
  lemma GroupSplitIsDeinterleaving(instructors: nat, stats: seq<string>)
    requires instructors > 1
    ensures var g := SplitStats(instructors, stats).value;
      && (forall j :: 0 <= j < |stats| ==> j / 4 < |Column(g, j % 4)| && Column(g, j % 4)[j / 4] == stats[j])
      && |g.groupCourses| <= |g.groupStudents| <= |g.groupReviews| <= |g.groupRatings| <= |g.groupCourses| + 1
  {
    var g := SplitStats(instructors, stats).value;
    forall j | 0 <= j < |stats|
      ensures j / 4 < |Column(g, j % 4)| && Column(g, j % 4)[j / 4] == stats[j]
    {
      ColumnIsStride(instructors, stats, j % 4);
      StrideAt(stats, j);
    }
    StrideLengths(stats);
  }

  /** With four values per instructor, every column has one entry per instructor. */
  lemma GroupColumnsAligned(instructors: nat, stats: seq<string>)
    requires instructors > 1 && |stats| == 4 * instructors
    ensures var g := SplitStats(instructors, stats).value;
      forall k :: 0 <= k < 4 ==> |Column(g, k)| == instructors
  {
  }

  /** `" -&- ".join(names)` for several instructors, the one name otherwise. */
  function InstructorName(names: seq<string>): (r: Option<string>)
    ensures r.None? <==> names == []
    ensures |names| == 1 ==> r == Some(names[0])
    ensures |names| > 1 ==> r == Some(Text.Join(names, " -&- "))
  {
    if names == [] then None
    else if |names| == 1 then Some(names[0])
    else Some(Text.Join(names, " -&- "))
  }

  /** Every instructor's name appears in the combined name. */
  lemma InstructorNameListsAll(names: seq<string>, j: nat)
    requires j < |names|
    ensures Text.IsInfix(names[j], InstructorName(names).value)
  {
    Text.JoinContains(names, " -&- ", j);
  }

  /** Python's two-argument `zip`: pairs up to the shorter list. */
  function Zip<A, B>(a: seq<A>, b: seq<B>): (r: seq<(A, B)>)
    ensures |r| == if |a| < |b| then |a| else |b|
    ensures forall i :: 0 <= i < |r| ==> r[i] == (a[i], b[i])
  {
    if a == [] || b == [] then [] else [(a[0], b[0])] + Zip(a[1..], b[1..])
  }

  function Firsts<A, B>(pairs: seq<(A, B)>): (r: seq<A>)
    ensures |r| == |pairs|
    ensures forall i :: 0 <= i < |r| ==> r[i] == pairs[i].0
  {
    if pairs == [] then [] else [pairs[0].0] + Firsts(pairs[1..])
  }

  function Seconds<A, B>(pairs: seq<(A, B)>): (r: seq<B>)
    ensures |r| == |pairs|
    ensures forall i :: 0 <= i < |r| ==> r[i] == pairs[i].1
  {
    if pairs == [] then [] else [pairs[0].1] + Seconds(pairs[1..])
  }

  /** Unzipping the lecture breakdown gives back both lists, cut to the shorter one. */
  lemma UnzipZip<A, B>(a: seq<A>, b: seq<B>)
    ensures Firsts(Zip(a, b)) == a[..|Zip(a, b)|]
    ensures Seconds(Zip(a, b)) == b[..|Zip(a, b)|]
  {
  }

  /** The parts of a course record this model shapes. */
  datatype Course = Course(link: string, instructorName: string, stats: Stats, lectures: seq<(string, string)>)

  /**
    The record of one scraped course: the instructor name(s), the statistics
    split by the number of instructors on the page, and the lecture titles
    paired with their durations.
   */
  function ShapeCourse(link: string, names: seq<string>, stats: seq<string>, titles: seq<string>, durations: seq<string>): (r: Option<Course>)
    ensures r.Some? <==> |names| > 1 || (|names| == 1 && |stats| >= 4)
    ensures r.Some? ==> r.value.link == link && (r.value.stats.Group? <==> |names| > 1)
    ensures r.Some? ==> |r.value.lectures| <= |titles| && |r.value.lectures| <= |durations|
    ensures r.Some? ==> Some(r.value.instructorName) == InstructorName(names)
    ensures r.Some? ==> Some(r.value.stats) == SplitStats(|names|, stats)
    ensures r.Some? ==> r.value.lectures == Zip(titles, durations)
  {
    match (InstructorName(names), SplitStats(|names|, stats))
    case (Some(name), Some(split)) => Some(Course(link, name, split, Zip(titles, durations)))
    case _ => None
  }
}

=== FILE: crawl.dfy ===
/**
  The crawl: `scraper`'s outer `while nextpage` loop, `listings_page_iterator`
  and `scrape_links_navigator`, as a fold over the results pages the site
  serves. Each course page is reduced to two observations: whether the course
  scraper lets it proceed, and the review columns it shows.
 */
module Crawl {
  import opened Outcomes
  import Pagination
  import Reviews
  import Query
  import Seqs
  import Eligibility

  /**
    The accumulators of one run: `visited_links` (seeded by the caller), the
    links of the courses that were scraped, and the review rows.
   */
  datatype CrawlState = CrawlState(visited: seq<string>, courses: seq<string>, reviews: seq<Reviews.ReviewRow>)

  /** One link not visited yet: scrape it, collect reviews only if it proceeds, and remember it. */
  function Visit(st: CrawlState, link: string, accept: string -> bool, observe: string -> Reviews.ReviewColumns): (r: CrawlState)
    ensures r.visited == st.visited + [link]
    ensures accept(link) ==> r.courses == st.courses + [link]
    ensures !accept(link) ==> r.courses == st.courses && r.reviews == st.reviews
  {
    if accept(link) then
      CrawlState(st.visited + [link], st.courses + [link], st.reviews + Reviews.Rows(link, observe(link)))
    else
      CrawlState(st.visited + [link], st.courses, st.reviews)
  }

  /** `scrape_links_navigator`: the links of one page, in order, skipping every link already visited. */
  function Navigate(st: CrawlState, links: seq<string>, accept: string -> bool, observe: string -> Reviews.ReviewColumns): (r: CrawlState)
    ensures st.visited <= r.visited
    ensures forall l :: l in links ==> l in r.visited
    decreases |links|
  {
    if links == [] then st
    else
      var next := if links[0] in st.visited then st else Visit(st, links[0], accept, observe);
      assert links[0] in next.visited;
      assert forall l :: l in links ==> l == links[0] || l in links[1..];
      Navigate(next, links[1..], accept, observe)
  }

  predicate NoDuplicates(s: seq<string>) {
    forall i, j :: 0 <= i < j < |s| ==> s[i] != s[j]
  }

  /** The links the course scraper lets through, in order. */
  function Accepted(links: seq<string>, accept: string -> bool): seq<string> {
    if links == [] then []
    else (if accept(links[0]) then [links[0]] else []) + Accepted(links[1..], accept)
  }

  /** The links the course scraper turns down, in order. */
  function Rejected(links: seq<string>, accept: string -> bool): seq<string> {
    if links == [] then []
    else (if accept(links[0]) then [] else [links[0]]) + Rejected(links[1..], accept)
  }

  /** The review rows of the given courses, course by course. */
  function ReviewsOf(courses: seq<string>, observe: string -> Reviews.ReviewColumns): seq<Reviews.ReviewRow> {
    if courses == [] then []
    else Reviews.Rows(courses[0], observe(courses[0])) + ReviewsOf(courses[1..], observe)
  }

  /** The accepted links are the links the scraper lets through, and no others. */
  lemma {:induction false} AcceptedMembers(links: seq<string>, accept: string -> bool)
    ensures forall l :: l in Accepted(links, accept) <==> l in links && accept(l)
  {
    if links != [] {
      AcceptedMembers(links[1..], accept);
      assert forall l :: l in links <==> l == links[0] || l in links[1..];
    }
  }

  /** Every collected review row belongs to one of the courses it was collected for. */
  lemma {:induction false} ReviewsOfLinks(courses: seq<string>, observe: string -> Reviews.ReviewColumns)
    ensures forall i :: 0 <= i < |ReviewsOf(courses, observe)| ==> ReviewsOf(courses, observe)[i].courseLink in courses
  {
    if courses != [] {
      ReviewsOfLinks(courses[1..], observe);
      var rows := Reviews.Rows(courses[0], observe(courses[0]));
      var rest := ReviewsOf(courses[1..], observe);
      var all: seq<Reviews.ReviewRow> := rows + rest;
      forall i | 0 <= i < |all| ensures all[i].courseLink in courses {
        if i < |rows| {
          assert all[i] == rows[i];
          Reviews.RowsAt(courses[0], observe(courses[0]));
        } else {
          assert all[i] == rest[i - |rows|];
        }
      }
    }
  }

  lemma {:induction false} AcceptedAppend(a: seq<string>, b: seq<string>, accept: string -> bool)
    ensures Accepted(a + b, accept) == Accepted(a, accept) + Accepted(b, accept)
  {
    if a == [] {
      assert a + b == b;
    } else {
      var head := if accept(a[0]) then [a[0]] else [];
      assert (a + b)[0] == a[0];
      assert (a + b)[1..] == a[1..] + b;
      AcceptedAppend(a[1..], b, accept);
      assert Accepted(a + b, accept) == head + (Accepted(a[1..], accept) + Accepted(b, accept));
      Seqs.Associative(head, Accepted(a[1..], accept), Accepted(b, accept));
    }
  }

  lemma {:induction false} ReviewsOfAppend(a: seq<string>, b: seq<string>, observe: string -> Reviews.ReviewColumns)
    ensures ReviewsOf(a + b, observe) == ReviewsOf(a, observe) + ReviewsOf(b, observe)
  {
    if a == [] {
      assert a + b == b;
    } else {
      var head := Reviews.Rows(a[0], observe(a[0]));
      assert (a + b)[0] == a[0];
      assert (a + b)[1..] == a[1..] + b;
      ReviewsOfAppend(a[1..], b, observe);
      assert ReviewsOf(a + b, observe) == head + (ReviewsOf(a[1..], observe) + ReviewsOf(b, observe));
      Seqs.Associative(head, ReviewsOf(a[1..], observe), ReviewsOf(b, observe));
    }
  }

  /** Every processed link is either scraped or turned down. */
  lemma {:induction false} Partition(links: seq<string>, accept: string -> bool)
    ensures |links| == |Accepted(links, accept)| + |Rejected(links, accept)|
  {
    if links != [] {
      Partition(links[1..], accept);
    }
  }

  lemma {:induction false} AcceptedNoDuplicates(links: seq<string>, accept: string -> bool)
    requires NoDuplicates(links)
    ensures NoDuplicates(Accepted(links, accept))
  {
    if links != [] {
      assert NoDuplicates(links[1..]) by {
        forall i, j | 0 <= i < j < |links[1..]| ensures links[1..][i] != links[1..][j] {
          assert links[1..][i] == links[i + 1] && links[1..][j] == links[j + 1];
        }
      }
      AcceptedNoDuplicates(links[1..], accept);
      AcceptedMembers(links[1..], accept);
      assert links[0] !in links[1..];
      if accept(links[0]) {
        NoDuplicatesAppend([links[0]], Accepted(links[1..], accept));
      }
    }
  }

  lemma NoDuplicatesAppend(a: seq<string>, b: seq<string>)
    requires NoDuplicates(a) && NoDuplicates(b)
    requires forall l :: l in b ==> l !in a
    ensures NoDuplicates(a + b)
  {
    var s := a + b;
    forall i, j | 0 <= i < j < |s| ensures s[i] != s[j] {
      if j < |a| {
        assert s[i] == a[i] && s[j] == a[j];
      } else if i >= |a| {
        assert s[i] == b[i - |a|] && s[j] == b[j - |a|];
      } else {
        assert s[i] == a[i] && s[j] == b[j - |a|];
        assert b[j - |a|] in b;
      }
    }
  }

  /** The links one pass over a page appends to the visited list. */
  function Added(st: CrawlState, links: seq<string>, accept: string -> bool, observe: string -> Reviews.ReviewColumns): seq<string> {
    Navigate(st, links, accept, observe).visited[|st.visited|..]
  }

  /** Unfolding one link the pass has not seen: it is appended first, before the rest of the page. */
  lemma AddedUnfold(st: CrawlState, links: seq<string>, accept: string -> bool, observe: string -> Reviews.ReviewColumns)
    requires links != [] && links[0] !in st.visited
    ensures Added(st, links, accept, observe)
      == [links[0]] + Added(Visit(st, links[0], accept, observe), links[1..], accept, observe)
  {
    var st1 := Visit(st, links[0], accept, observe);
    var r := Navigate(st1, links[1..], accept, observe);
    assert Navigate(st, links, accept, observe) == r;
    assert st1.visited <= r.visited;
    assert r.visited[|st.visited|..] == [links[0]] + r.visited[|st1.visited|..];
  }

  /** One pass appends each link of the page not seen before, exactly once. */
  lemma {:induction false} NavigateAddsFresh(st: CrawlState, links: seq<string>, accept: string -> bool, observe: string -> Reviews.ReviewColumns)
    ensures var added := Added(st, links, accept, observe);
      && NoDuplicates(added)
      && (forall l :: l in added ==> l in links && l !in st.visited)
      && (forall l :: l in links ==> l in st.visited || l in added)
    decreases |links|
  {
    var r := Navigate(st, links, accept, observe);
    assert r.visited == st.visited + Added(st, links, accept, observe);
    if links == [] {
    } else if links[0] in st.visited {
      NavigateAddsFresh(st, links[1..], accept, observe);
    } else {
      var st1 := Visit(st, links[0], accept, observe);
      NavigateAddsFresh(st1, links[1..], accept, observe);
      AddedUnfold(st, links, accept, observe);
      NoDuplicatesAppend([links[0]], Added(st1, links[1..], accept, observe));
    }
  }

  lemma VisitRecords(st: CrawlState, link: string, accept: string -> bool, observe: string -> Reviews.ReviewColumns)
    ensures var r := Visit(st, link, accept, observe);
      && r.courses == st.courses + Accepted([link], accept)
      && r.reviews == st.reviews + ReviewsOf(Accepted([link], accept), observe)
  {
    if accept(link) {
      assert Accepted([link], accept) == [link];
      assert ReviewsOf([link], observe) == Reviews.Rows(link, observe(link)) + ReviewsOf([], observe);
    } else {
      assert Accepted([link], accept) == [];
    }
  }

  /** The records of one pass over a page agree with the links it appends. */
  predicate RecordsMatch(st: CrawlState, links: seq<string>, accept: string -> bool, observe: string -> Reviews.ReviewColumns) {
    CoursesMatch(st, links, accept, observe) && ReviewsMatch(st, links, accept, observe)
  }

  predicate CoursesMatch(st: CrawlState, links: seq<string>, accept: string -> bool, observe: string -> Reviews.ReviewColumns) {
    Navigate(st, links, accept, observe).courses == st.courses + Accepted(Added(st, links, accept, observe), accept)
  }

  predicate ReviewsMatch(st: CrawlState, links: seq<string>, accept: string -> bool, observe: string -> Reviews.ReviewColumns) {
    Navigate(st, links, accept, observe).reviews == st.reviews + ReviewsOf(Accepted(Added(st, links, accept, observe), accept), observe)
  }

  /** The links a pass appends after a fresh first link: that link, then what the rest of the page appends. */
  lemma ScrapedUnfold(st: CrawlState, links: seq<string>, accept: string -> bool, observe: string -> Reviews.ReviewColumns)
    requires links != [] && links[0] !in st.visited
    ensures Accepted(Added(st, links, accept, observe), accept)
      == Accepted([links[0]], accept) + Accepted(Added(Visit(st, links[0], accept, observe), links[1..], accept, observe), accept)
    ensures Navigate(st, links, accept, observe) == Navigate(Visit(st, links[0], accept, observe), links[1..], accept, observe)
  {
    AddedUnfold(st, links, accept, observe);
    AcceptedAppend([links[0]], Added(Visit(st, links[0], accept, observe), links[1..], accept, observe), accept);
  }

  lemma CoursesMatchFresh(st: CrawlState, links: seq<string>, accept: string -> bool, observe: string -> Reviews.ReviewColumns)
    requires links != [] && links[0] !in st.visited
    requires CoursesMatch(Visit(st, links[0], accept, observe), links[1..], accept, observe)
    ensures CoursesMatch(st, links, accept, observe)
  {
    ScrapedUnfold(st, links, accept, observe);
    VisitRecords(st, links[0], accept, observe);
  }

  /** Review rows collected in two stretches are the rows of the two stretches' courses, in order. */
  lemma ReviewsInTwoStretches(r0: seq<Reviews.ReviewRow>, r1: seq<Reviews.ReviewRow>, r2: seq<Reviews.ReviewRow>,
                              head: seq<string>, tail: seq<string>, observe: string -> Reviews.ReviewColumns)
    requires r1 == r0 + ReviewsOf(head, observe)
    requires r2 == r1 + ReviewsOf(tail, observe)
    ensures r2 == r0 + ReviewsOf(head + tail, observe)
  {
    ReviewsOfAppend(head, tail, observe);
    Seqs.Associative(r0, ReviewsOf(head, observe), ReviewsOf(tail, observe));
  }

  lemma ReviewsMatchFresh(st: CrawlState, links: seq<string>, accept: string -> bool, observe: string -> Reviews.ReviewColumns)
    requires links != [] && links[0] !in st.visited
    requires ReviewsMatch(Visit(st, links[0], accept, observe), links[1..], accept, observe)
    ensures ReviewsMatch(st, links, accept, observe)
  {
    var st1 := Visit(st, links[0], accept, observe);
    var head := Accepted([links[0]], accept);
    var tail := Accepted(Added(st1, links[1..], accept, observe), accept);
    var r := Navigate(st1, links[1..], accept, observe);
    ScrapedUnfold(st, links, accept, observe);
    VisitRecords(st, links[0], accept, observe);
    ReviewsInTwoStretches(st.reviews, st1.reviews, r.reviews, head, tail, observe);
  }

  lemma RecordsMatchFresh(st: CrawlState, links: seq<string>, accept: string -> bool, observe: string -> Reviews.ReviewColumns)
    requires links != [] && links[0] !in st.visited
    requires RecordsMatch(Visit(st, links[0], accept, observe), links[1..], accept, observe)
    ensures RecordsMatch(st, links, accept, observe)
  {
    CoursesMatchFresh(st, links, accept, observe);
    ReviewsMatchFresh(st, links, accept, observe);
  }

  lemma RecordsMatchVisited(st: CrawlState, links: seq<string>, accept: string -> bool, observe: string -> Reviews.ReviewColumns)
    requires links != [] && links[0] in st.visited
    requires RecordsMatch(st, links[1..], accept, observe)
    ensures RecordsMatch(st, links, accept, observe)
  {
    assert Navigate(st, links, accept, observe) == Navigate(st, links[1..], accept, observe);
  }

  /** One pass scrapes the accepted links among those it appends, and collects the reviews of exactly those. */
  lemma {:induction false} NavigateAddsRecords(st: CrawlState, links: seq<string>, accept: string -> bool, observe: string -> Reviews.ReviewColumns)
    ensures RecordsMatch(st, links, accept, observe)
    decreases |links|
  {
    if links == [] {
      assert Added(st, links, accept, observe) == [];
    } else if links[0] in st.visited {
      NavigateAddsRecords(st, links[1..], accept, observe);
      RecordsMatchVisited(st, links, accept, observe);
    } else {
      NavigateAddsRecords(Visit(st, links[0], accept, observe), links[1..], accept, observe);
      RecordsMatchFresh(st, links, accept, observe);
    }
  }

  /** A page whose links were all visited before changes nothing. */
  lemma {:induction false} NavigateVisited(st: CrawlState, links: seq<string>, accept: string -> bool, observe: string -> Reviews.ReviewColumns)
    requires forall l :: l in links ==> l in st.visited
    ensures Navigate(st, links, accept, observe) == st
    decreases |links|
  {
    if links != [] {
      NavigateVisited(st, links[1..], accept, observe);
    }
  }

  /** Going through two lists of links is going through their concatenation. */
  lemma {:induction false} NavigateAppend(st: CrawlState, a: seq<string>, b: seq<string>, accept: string -> bool, observe: string -> Reviews.ReviewColumns)
    ensures Navigate(st, a + b, accept, observe) == Navigate(Navigate(st, a, accept, observe), b, accept, observe)
    decreases |a|
  {
    if a == [] {
      assert a + b == b;
    } else {
      assert (a + b)[0] == a[0];
      assert (a + b)[1..] == a[1..] + b;
      var next := if a[0] in st.visited then st else Visit(st, a[0], accept, observe);
      NavigateAppend(next, a[1..], b, accept, observe);
    }
  }

  /**
    The bookkeeping invariant of a run seeded with `seed`: the seed stays at
    the front of the visited list; behind it every link appears once and is
    not in the seed; the scraped courses are the accepted ones among them, in
    order; the reviews are those of the scraped courses and no others.
   */
  predicate Consistent(seed: seq<string>, st: CrawlState, accept: string -> bool, observe: string -> Reviews.ReviewColumns) {
    && seed <= st.visited
    && NoDuplicates(st.visited[|seed|..])
    && (forall l :: l in st.visited[|seed|..] ==> l !in seed)
    && st.courses == Accepted(st.visited[|seed|..], accept)
    && st.reviews == ReviewsOf(st.courses, observe)
  }

  lemma NavigateConsistent(seed: seq<string>, st: CrawlState, links: seq<string>, accept: string -> bool, observe: string -> Reviews.ReviewColumns)
    requires Consistent(seed, st, accept, observe)
    ensures Consistent(seed, Navigate(st, links, accept, observe), accept, observe)
  {
    var r := Navigate(st, links, accept, observe);
    var before := st.visited[|seed|..];
    var added := Added(st, links, accept, observe);
    NavigateAddsFresh(st, links, accept, observe);
    NavigateAddsRecords(st, links, accept, observe);
    assert r.visited == st.visited + added;
    assert r.visited[|seed|..] == before + added;
    forall l | l in added ensures l !in before {
      assert l !in st.visited;
    }
    NoDuplicatesAppend(before, added);
    AcceptedAppend(before, added, accept);
    ReviewsOfAppend(st.courses, Accepted(added, accept), observe);
  }

  /** The invariants the records promise: courses unique and visited, every review tied to a scraped course. */
  lemma ConsistentRecords(seed: seq<string>, st: CrawlState, accept: string -> bool, observe: string -> Reviews.ReviewColumns)
    requires Consistent(seed, st, accept, observe)
    ensures NoDuplicates(st.courses)
    ensures forall c :: c in st.courses ==> c in st.visited && c !in seed && accept(c)
    ensures forall i :: 0 <= i < |st.reviews| ==> st.reviews[i].courseLink in st.courses
    ensures |st.visited| == |seed| + |Rejected(st.visited[|seed|..], accept)| + |st.courses|
  {
    AcceptedNoDuplicates(st.visited[|seed|..], accept);
    AcceptedMembers(st.visited[|seed|..], accept);
    ReviewsOfLinks(st.courses, observe);
    Partition(st.visited[|seed|..], accept);
  }

  /** How a run ended: its accumulators, the number of results pages read, and whether a page said there is no next one. */
  datatype CrawlRun = CrawlRun(state: CrawlState, pagesRead: nat, finished: bool)

  function CursorAt(script: Script, pages: seq<Pagination.ListingPage>, i: nat): Option<string>
    requires i < |pages|
  {
    Pagination.ListingStep(script, pages[i]).cursor
  }

  /**
    Reading results pages in order: scrape the page's links, then follow its
    cursor while it is truthy. `pages` is what the site serves; if it runs out
    while a cursor is still truthy, the run is cut there, not finished.
   */
  function Crawl(script: Script, pages: seq<Pagination.ListingPage>, st: CrawlState, accept: string -> bool, observe: string -> Reviews.ReviewColumns): (r: CrawlRun)
    ensures r.pagesRead <= |pages|
    ensures pages != [] ==> r.pagesRead >= 1
    ensures forall i :: 0 <= i < r.pagesRead - 1 ==> Pagination.Continues(CursorAt(script, pages, i))
    ensures r.finished ==> r.pagesRead >= 1 && !Pagination.Continues(CursorAt(script, pages, r.pagesRead - 1))
    ensures !r.finished ==> r.pagesRead == |pages|
    decreases |pages|
  {
    if pages == [] then CrawlRun(st, 0, false)
    else
      var step := Pagination.ListingStep(script, pages[0]);
      var next := Navigate(st, step.links, accept, observe);
      if Pagination.Continues(step.cursor) then
        var rest := Crawl(script, pages[1..], next, accept, observe);
        assert forall i :: 1 <= i < |pages| ==> CursorAt(script, pages, i) == CursorAt(script, pages[1..], i - 1);
        CrawlRun(rest.state, rest.pagesRead + 1, rest.finished)
      else
        CrawlRun(next, 1, true)
  }

  /** All course links of the given pages, page after page. */
  function LinksOf(pages: seq<Pagination.ListingPage>): seq<string> {
    if pages == [] then [] else pages[0].links + LinksOf(pages[1..])
  }

  /** The links of the first `n` pages are the first page's links, then those of the next `n - 1`. */
  lemma LinksOfPrefix(pages: seq<Pagination.ListingPage>, n: nat)
    requires 1 <= n <= |pages|
    ensures LinksOf(pages[..n]) == pages[0].links + LinksOf(pages[1..][..n - 1])
  {
    assert pages[..n][1..] == pages[1..][..n - 1];
  }

  /** A run is one pass over the links of the pages it read, so a course listed on two pages is processed once. */
  lemma {:induction false} CrawlIsNavigate(script: Script, pages: seq<Pagination.ListingPage>, st: CrawlState, accept: string -> bool, observe: string -> Reviews.ReviewColumns)
    ensures var r := Crawl(script, pages, st, accept, observe);
      r.state == Navigate(st, LinksOf(pages[..r.pagesRead]), accept, observe)
    decreases |pages|
  {
    if pages != [] {
      var r := Crawl(script, pages, st, accept, observe);
      var next := Navigate(st, pages[0].links, accept, observe);
      LinksOfPrefix(pages, r.pagesRead);
      if Pagination.Continues(CursorAt(script, pages, 0)) {
        var rest := Crawl(script, pages[1..], next, accept, observe);
        assert r.state == rest.state && r.pagesRead == rest.pagesRead + 1;
        CrawlIsNavigate(script, pages[1..], next, accept, observe);
        NavigateAppend(st, pages[0].links, LinksOf(pages[1..][..rest.pagesRead]), accept, observe);
      } else {
        assert r.pagesRead == 1 && r.state == next;
        assert pages[1..][..0] == [];
        assert pages[0].links + [] == pages[0].links;
      }
    }
  }

  /** Where a run stops depends on the pagination alone, not on what was scraped. */
  lemma {:induction false} CrawlStopIgnoresState(script: Script, pages: seq<Pagination.ListingPage>, st1: CrawlState, st2: CrawlState, accept: string -> bool, observe: string -> Reviews.ReviewColumns)
    ensures Crawl(script, pages, st1, accept, observe).pagesRead == Crawl(script, pages, st2, accept, observe).pagesRead
    ensures Crawl(script, pages, st1, accept, observe).finished == Crawl(script, pages, st2, accept, observe).finished
    decreases |pages|
  {
    if pages != [] && Pagination.Continues(CursorAt(script, pages, 0)) {
      CrawlStopIgnoresState(script, pages[1..], Navigate(st1, pages[0].links, accept, observe),
        Navigate(st2, pages[0].links, accept, observe), accept, observe);
    }
  }

  /**
    The corrected listing step: a results page with no course link and no
    next-page anchor, reached by following truthy cursors, ends the run
    cleanly right there. That is the page on which the written code raises.
   */
  lemma {:induction false} EmptyLastPageEndsCrawl(script: Script, pages: seq<Pagination.ListingPage>, k: nat, st: CrawlState, accept: string -> bool, observe: string -> Reviews.ReviewColumns)
    requires k < |pages|
    requires forall i :: 0 <= i < k ==> Pagination.Continues(CursorAt(script, pages, i))
    requires pages[k].links == [] && pages[k].pager.anchor.Missing?
    ensures Pagination.ListingStepAsWritten(pages[k]).Failure?
    ensures var r := Crawl(script, pages, st, accept, observe);
      && r.pagesRead == k + 1 && r.finished
      && r.state == Navigate(st, LinksOf(pages[..k]), accept, observe)
    decreases k
  {
    var r := Crawl(script, pages, st, accept, observe);
    if k == 0 {
      assert pages[..0] == [];
    } else {
      var next := Navigate(st, pages[0].links, accept, observe);
      forall i | 0 <= i < k - 1 ensures Pagination.Continues(CursorAt(script, pages[1..], i)) {
        assert CursorAt(script, pages[1..], i) == CursorAt(script, pages, i + 1);
      }
      EmptyLastPageEndsCrawl(script, pages[1..], k - 1, next, accept, observe);
      var rest := Crawl(script, pages[1..], next, accept, observe);
      assert r.state == rest.state && r.pagesRead == rest.pagesRead + 1 && r.finished == rest.finished;
      LinksOfPrefix(pages, k);
      NavigateAppend(st, pages[0].links, LinksOf(pages[1..][..k - 1]), accept, observe);
    }
  }

  /**
    The entry point `scraper`: validate the arguments, apply the filters,
    then crawl from a visited list seeded with the caller's links.
   */
  function Scrape(
    script: Script, search: Query.PyValue, category: Query.PyValue, previous: Query.PyValue,
    topics: seq<string>, languages: seq<string>, pages: seq<Pagination.ListingPage>,
    accept: string -> bool, observe: string -> Reviews.ReviewColumns): (r: Result<CrawlRun, Query.ScrapeError>)
    ensures Query.Validate(search, category, previous).Failure? ==> r == Failure(Query.Validate(search, category, previous).error)
    ensures r.Success? ==> Query.Validate(search, category, previous).Success?
    ensures r.Success? ==> Query.ApplyFilters(script, topics, languages, Query.Validate(search, category, previous).value.category).Success?
    ensures Query.Validate(search, category, previous).Success? ==>
      var req := Query.Validate(search, category, previous).value;
      && (r.Success? <==> Query.ApplyFilters(script, topics, languages, req.category).Success?)
      && (Query.ApplyFilters(script, topics, languages, req.category).Failure? ==>
            r == Failure(Query.ApplyFilters(script, topics, languages, req.category).error))
      && (r.Success? ==> r.value == Crawl(script, pages, CrawlState(req.seed, [], []), accept, observe))
  {
    match Query.Validate(search, category, previous)
    case Failure(e) => Failure(e)
    case Success(req) =>
      match Query.ApplyFilters(script, topics, languages, req.category)
      case Failure(e) => Failure(e)
      case Success(_) => Success(Crawl(script, pages, CrawlState(req.seed, [], []), accept, observe))
  }

  /** A run started from the caller's links keeps them in front, keeps the invariant and visits every link it reads. */
  lemma CrawlFromSeedConsistent(script: Script, pages: seq<Pagination.ListingPage>, seed: seq<string>, accept: string -> bool, observe: string -> Reviews.ReviewColumns)
    ensures var r := Crawl(script, pages, CrawlState(seed, [], []), accept, observe);
      && Consistent(seed, r.state, accept, observe)
      && r.state.visited[..|seed|] == seed
      && (forall l :: l in LinksOf(pages[..r.pagesRead]) ==> l in r.state.visited)
  {
    var start := CrawlState(seed, [], []);
    assert start.visited[|seed|..] == [];
    assert Consistent(seed, start, accept, observe);
    var r := Crawl(script, pages, start, accept, observe);
    CrawlIsNavigate(script, pages, start, accept, observe);
    NavigateConsistent(seed, start, LinksOf(pages[..r.pagesRead]), accept, observe);
  }

  /** A successful run keeps the seed in front, processes no link twice and ties every review to a scraped course. */
  lemma ScrapeConsistent(
    script: Script, search: Query.PyValue, category: Query.PyValue, previous: Query.PyValue,
    topics: seq<string>, languages: seq<string>, pages: seq<Pagination.ListingPage>,
    accept: string -> bool, observe: string -> Reviews.ReviewColumns)
    requires Query.Validate(search, category, previous).Success?
    requires Query.ApplyFilters(script, topics, languages, Query.Validate(search, category, previous).value.category).Success?
    ensures Scrape(script, search, category, previous, topics, languages, pages, accept, observe).Success?
    ensures var seed := Query.Validate(search, category, previous).value.seed;
      var st := Scrape(script, search, category, previous, topics, languages, pages, accept, observe).value.state;
      && Consistent(seed, st, accept, observe)
      && (previous.List? ==> st.visited[..|previous.items|] == previous.items)
      && (forall l :: l in LinksOf(pages[..Scrape(script, search, category, previous, topics, languages, pages, accept, observe).value.pagesRead]) ==> l in st.visited)
  {
    var seed := Query.Validate(search, category, previous).value.seed;
    var r := Crawl(script, pages, CrawlState(seed, [], []), accept, observe);
    assert Scrape(script, search, category, previous, topics, languages, pages, accept, observe) == Success(r);
    CrawlFromSeedConsistent(script, pages, seed, accept, observe);
  }

  /**
    Re-running with the first run's visited list as `previous_links` reads the
    same pages and scrapes nothing new.
   */
  lemma ScrapeIdempotent(
    script: Script, search: Query.PyValue, category: Query.PyValue, previous: Query.PyValue,
    topics: seq<string>, languages: seq<string>, pages: seq<Pagination.ListingPage>,
    accept: string -> bool, observe: string -> Reviews.ReviewColumns)
    requires Query.Validate(search, category, previous).Success?
    requires Query.ApplyFilters(script, topics, languages, Query.Validate(search, category, previous).value.category).Success?
    ensures var first := Scrape(script, search, category, previous, topics, languages, pages, accept, observe).value;
      Scrape(script, search, category, Query.List(first.state.visited), topics, languages, pages, accept, observe)
        == Success(CrawlRun(CrawlState(first.state.visited, [], []), first.pagesRead, first.finished))
  {
    var first := Scrape(script, search, category, previous, topics, languages, pages, accept, observe).value;
    var seed := Query.Validate(search, category, previous).value.seed;
    var start := CrawlState(seed, [], []);
    var again := CrawlState(first.state.visited, [], []);
    ScrapeConsistent(script, search, category, previous, topics, languages, pages, accept, observe);
    var second := Crawl(script, pages, again, accept, observe);
    CrawlStopIgnoresState(script, pages, start, again, accept, observe);
    CrawlIsNavigate(script, pages, again, accept, observe);
    NavigateVisited(again, LinksOf(pages[..second.pagesRead]), accept, observe);
  }

  /**
    What processing one link does in `scrape_links_navigator`: `Declined` is
    `course_scraper` returning `False`; `Proceeded` is it returning `True` and
    `review_scraper` then returning; `Raised` is any exception that escapes
    while the link is processed, whether from `course_scraper` or from
    `review_scraper` after it, and ends the whole run.
   */
  datatype CourseOutcome = Proceeded | Declined | Raised

  /**
    The outcome of `course_scraper` from the requirement check and from what
    scraping the page then does (`scraped`; udemine.py's page scrapers return
    `False` when the curriculum header is missing, and udemycourses.py raises).
   */
  function CourseScraper(script: Script, page: Eligibility.CoursePage, scraped: CourseOutcome): (r: CourseOutcome)
    ensures r == Raised <==>
      Eligibility.Raises(script, page) || (Eligibility.Check(script, page).Proceed? && scraped == Raised)
    ensures r == Proceeded <==> Eligibility.Check(script, page).Proceed? && scraped == Proceeded
    ensures Eligibility.Check(script, page) == Eligibility.Skip ==> r == Declined
  {
    Eligibility.CheckAbortIff(script, page);
    match Eligibility.Check(script, page)
    case Skip => Declined
    case Abort(_) => Raised
    case Proceed(_) => scraped
  }

  /**
    The outcome of processing one link: `course_scraper` as above, then, for
    a course that proceeds, the "show more" loop of `review_scraper`, whose
    click may raise an exception the loop does not catch.
   */
  function ProcessLink(script: Script, page: Eligibility.CoursePage, scraped: CourseOutcome, attempts: seq<Reviews.Attempt>): (r: CourseOutcome)
    ensures r == Raised <==>
      || Eligibility.Raises(script, page)
      || (Eligibility.Check(script, page).Proceed? && scraped == Raised)
      || (Eligibility.Check(script, page).Proceed? && scraped == Proceeded
          && Reviews.ShowMore(Reviews.ShowMoreLimit(script), attempts).None?)
    ensures r == Proceeded <==>
      && Eligibility.Check(script, page).Proceed? && scraped == Proceeded
      && Reviews.ShowMore(Reviews.ShowMoreLimit(script), attempts).Some?
    ensures r == Declined <==> Eligibility.Check(script, page) == Eligibility.Skip || (Eligibility.Check(script, page).Proceed? && scraped == Declined)
  {
    var course := CourseScraper(script, page, scraped);
    if course == Proceeded && Reviews.ShowMore(Reviews.ShowMoreLimit(script), attempts).None? then Raised
    else course
  }

  /** The links whose processing returned normally with a scraped course. */
  function ProceedsUnder(outcome: string -> CourseOutcome): string -> bool {
    l => outcome(l) == Proceeded
  }

  /** The first link, in processing order, whose course scraper raises. */
  function FirstRaised(links: seq<string>, outcome: string -> CourseOutcome): (r: Option<nat>)
    ensures r.Some? ==> r.value < |links| && outcome(links[r.value]) == Raised
    ensures r.Some? ==> forall j :: 0 <= j < r.value ==> outcome(links[j]) != Raised
    ensures r.None? <==> forall j :: 0 <= j < |links| ==> outcome(links[j]) != Raised
  {
    if links == [] then None
    else if outcome(links[0]) == Raised then Some(0)
    else match FirstRaised(links[1..], outcome)
      case None => None
      case Some(i) => Some(i + 1)
  }

  /** The links a run started from `seed` processes, in the order it processes them. */
  function Processed(script: Script, pages: seq<Pagination.ListingPage>, seed: seq<string>, accept: string -> bool, observe: string -> Reviews.ReviewColumns): seq<string> {
    var run := Crawl(script, pages, CrawlState(seed, [], []), accept, observe);
    Added(CrawlState(seed, [], []), LinksOf(pages[..run.pagesRead]), accept, observe)
  }

  datatype RunError = Invalid(error: Query.ScrapeError) | CourseRaised(link: string)

  /**
    `scraper` with course scrapers that may raise. The run is the one the
    non-raising links give; the exception of the first processed link that
    raises ends it with no result. Stopping earlier changes nothing before that
    link, because which links are processed and where the run stops do not
    depend on what was scraped.
   */
  function Run(
    script: Script, search: Query.PyValue, category: Query.PyValue, previous: Query.PyValue,
    topics: seq<string>, languages: seq<string>, pages: seq<Pagination.ListingPage>,
    outcome: string -> CourseOutcome, observe: string -> Reviews.ReviewColumns): (r: Result<CrawlRun, RunError>)
    ensures Scrape(script, search, category, previous, topics, languages, pages, ProceedsUnder(outcome), observe).Failure? ==>
      r == Failure(Invalid(Scrape(script, search, category, previous, topics, languages, pages, ProceedsUnder(outcome), observe).error))
    ensures r.Success? ==>
      && Scrape(script, search, category, previous, topics, languages, pages, ProceedsUnder(outcome), observe) == Success(r.value)
      && var seed := Query.Validate(search, category, previous).value.seed;
      forall l :: l in Processed(script, pages, seed, ProceedsUnder(outcome), observe) ==> outcome(l) != Raised
    ensures r.Failure? && r.error.CourseRaised? ==>
      && Query.Validate(search, category, previous).Success?
      && var processed := Processed(script, pages, Query.Validate(search, category, previous).value.seed, ProceedsUnder(outcome), observe);
      && r.error.link in processed && outcome(r.error.link) == Raised
  {
    match Scrape(script, search, category, previous, topics, languages, pages, ProceedsUnder(outcome), observe)
    case Failure(e) => Failure(Invalid(e))
    case Success(run) =>
      var processed := Processed(script, pages, Query.Validate(search, category, previous).value.seed, ProceedsUnder(outcome), observe);
      match FirstRaised(processed, outcome)
      case Some(i) => Failure(CourseRaised(processed[i]))
      case None => Success(run)
  }

  /**
    The links a run processes were read from the results pages it read, were
    not among the caller's links, and each is processed once.
   */
  lemma ProcessedAreFresh(script: Script, pages: seq<Pagination.ListingPage>, seed: seq<string>, accept: string -> bool, observe: string -> Reviews.ReviewColumns)
    ensures var processed := Processed(script, pages, seed, accept, observe);
      var run := Crawl(script, pages, CrawlState(seed, [], []), accept, observe);
      && NoDuplicates(processed)
      && (forall l :: l in processed ==> l in LinksOf(pages[..run.pagesRead]) && l !in seed)
  {
    var run := Crawl(script, pages, CrawlState(seed, [], []), accept, observe);
    NavigateAddsFresh(CrawlState(seed, [], []), LinksOf(pages[..run.pagesRead]), accept, observe);
  }

  /**
    A run ends in the exception of a course exactly when some processed link
    raises, and the course it names is the first such link: every link
    processed before it returned.
   */
  lemma RunRaisesAtFirst(
    script: Script, search: Query.PyValue, category: Query.PyValue, previous: Query.PyValue,
    topics: seq<string>, languages: seq<string>, pages: seq<Pagination.ListingPage>,
    outcome: string -> CourseOutcome, observe: string -> Reviews.ReviewColumns)
    requires Scrape(script, search, category, previous, topics, languages, pages, ProceedsUnder(outcome), observe).Success?
    ensures var processed := Processed(script, pages, Query.Validate(search, category, previous).value.seed, ProceedsUnder(outcome), observe);
      var r := Run(script, search, category, previous, topics, languages, pages, outcome, observe);
      && (r.Failure? <==> exists i :: 0 <= i < |processed| && outcome(processed[i]) == Raised)
      && (r.Failure? ==> exists i :: (0 <= i < |processed| && r.error == CourseRaised(processed[i])
            && forall j :: 0 <= j < i ==> outcome(processed[j]) != Raised))
  {
    var processed := Processed(script, pages, Query.Validate(search, category, previous).value.seed, ProceedsUnder(outcome), observe);
    var r := Run(script, search, category, previous, topics, languages, pages, outcome, observe);
    var first := FirstRaised(processed, outcome);
    if first.Some? {
      assert r == Failure(CourseRaised(processed[first.value]));
    } else {
      assert r.Success?;
    }
  }

  /** With no course scraper raising, a run is exactly the crawl of `Scrape`. */
  lemma RunWithoutRaises(
    script: Script, search: Query.PyValue, category: Query.PyValue, previous: Query.PyValue,
    topics: seq<string>, languages: seq<string>, pages: seq<Pagination.ListingPage>,
    outcome: string -> CourseOutcome, observe: string -> Reviews.ReviewColumns)
    requires forall l :: outcome(l) != Raised
    ensures Run(script, search, category, previous, topics, languages, pages, outcome, observe).Success?
      <==> Scrape(script, search, category, previous, topics, languages, pages, ProceedsUnder(outcome), observe).Success?
  {
  }
}

=== FILE: eligibility.dfy ===
/**
  The minimum-requirement check each script runs on a course landing page
  before scraping it (`course_scraper`). The page is reduced to the text of
  three elements: the enrollment line, the rating line and the language line.
 */
module Eligibility {
  import opened Outcomes
  import Text
  import Counts

  /** The fixed policy: at least this many students, this many reviews, and this language. */
  const MinEnrollment: nat := 500
  const MinReviews: nat := 50
  const RequiredLanguage: string := "English"

  /** The two historical layouts of a course landing page. */
  datatype Layout = Original | Revised

  /** The text of the three elements the check reads; `None` when the element is absent. */
  datatype CoursePage = CoursePage(enrollment: Option<string>, rating: Option<string>, language: Option<string>)

  /** Why the check raised instead of answering (the exception ends the scraper run). */
  datatype PageError =
    | EnrollmentMissing
    | LanguageMissing
    | RatingMalformed(text: string)
    | NotACount(text: string)

  /** `Skip` is the `return False, courses` of the source, `Proceed` lets the scrape go on. */
  datatype Verdict = Skip | Proceed(layout: Layout) | Abort(error: PageError)

  predicate Eligible(enrolled: nat, reviews: nat, language: string) {
    enrolled >= MinEnrollment && reviews >= MinReviews && language == RequiredLanguage
  }

  /** A rating line that spans several lines is the revised layout. */
  function LayoutOf(rating: string): Layout {
    if '\n' in rating then Revised else Original
  }

  /** `text.split(" ", 1)[0]`: the number at the head of the enrollment line. */
  function EnrollmentToken(text: string): string {
    Text.Before(text, ' ')
  }

  /**
    The review count inside the rating line, without its leading "(".
    Original layout: the second whitespace-separated word. Revised layout: the
    first word of the last line. `None` is the `IndexError` of a line with too
    few words.
   */
  function ReviewCountToken(layout: Layout, rating: string): (r: Option<string>)
    ensures layout == Original ==> (r.Some? <==> |Text.Fields(rating)| >= 2)
    ensures layout == Original && r.Some? ==> r.value == Text.Drop(Text.Fields(rating)[1], 1)
    ensures layout == Revised ==> (r.Some? <==> Text.Fields(Text.AfterLast(rating, '\n')) != [])
    ensures layout == Revised && r.Some? ==> r.value == Text.Drop(Text.Fields(Text.AfterLast(rating, '\n'))[0], 1)
  {
    match layout
    case Original =>
      var words := Text.Fields(rating);
      if |words| < 2 then None else Some(Text.Drop(words[1], 1))
    case Revised =>
      var words := Text.Fields(Text.AfterLast(rating, '\n'));
      if words == [] then None else Some(Text.Drop(words[0], 1))
  }

  /**
    `int(enrolled) < 500 or int(reviews) < 50 or language != "English"`, evaluated
    left to right as Python does: the review count is not converted at all when
    the enrollment is already too low.
   */
  function Threshold(enrolled: string, reviews: string, language: string, layout: Layout): (v: Verdict)
    ensures Counts.ParseCount(enrolled).None? ==> v == Abort(NotACount(enrolled))
    ensures Counts.ParseCount(enrolled).Some? && Counts.ParseCount(enrolled).value < MinEnrollment ==> v == Skip
    ensures (Counts.ParseCount(enrolled).Some? && Counts.ParseCount(enrolled).value >= MinEnrollment
      && Counts.ParseCount(reviews).None?) ==> v == Abort(NotACount(reviews))
    ensures v.Abort? <==> CountsRaise(enrolled, reviews)
    ensures v.Proceed? <==>
      && Counts.ParseCount(enrolled).Some? && Counts.ParseCount(reviews).Some?
      && Eligible(Counts.ParseCount(enrolled).value, Counts.ParseCount(reviews).value, language)
    ensures v.Proceed? ==> v.layout == layout
  {
    match Counts.ParseCount(enrolled)
    case None => Abort(NotACount(enrolled))
    case Some(e) =>
      if e < MinEnrollment then Skip
      else
        match Counts.ParseCount(reviews)
        case None => Abort(NotACount(reviews))
        case Some(r) =>
          if r < MinReviews || language != RequiredLanguage then Skip else Proceed(layout)
  }

  /**
    Whether `int()` raises on the two counts, in the order the `or` evaluates
    them: the review count is converted only once the enrollment has passed.
   */
  predicate CountsRaise(enrolled: string, reviews: string) {
    || Counts.ParseCount(enrolled).None?
    || (Counts.ParseCount(enrolled).value >= MinEnrollment && Counts.ParseCount(reviews).None?)
  }

  /**
    `course_scraper` of udemine.py: a missing enrollment or rating element skips
    the course; a missing language element raises; the layout is chosen by the
    rating line.
   */
  function CheckUdemine(page: CoursePage): (v: Verdict)
    ensures page.enrollment.None? || page.rating.None? ==> v == Skip
    ensures page.enrollment.Some? && page.rating.Some? && page.language.None? ==> v == Abort(LanguageMissing)
    ensures (page.enrollment.Some? && page.rating.Some? && page.language.Some?
      && ReviewCountToken(LayoutOf(page.rating.value), page.rating.value).None?) ==> v == Abort(RatingMalformed(page.rating.value))
    ensures v.Proceed? ==> page.rating.Some? && v.layout == LayoutOf(page.rating.value)
  {
    if page.enrollment.None? || page.rating.None? then Skip
    else if page.language.None? then Abort(LanguageMissing)
    else
      var rating := page.rating.value;
      var layout := LayoutOf(rating);
      match ReviewCountToken(layout, rating)
      case None => Abort(RatingMalformed(rating))
      case Some(reviews) => Threshold(EnrollmentToken(page.enrollment.value), reviews, page.language.value, layout)
  }

  /**
    `course_scraper` of udemycourses.py: only a missing rating element skips the
    course; a missing enrollment or language element raises; the rating line is
    always read in the original layout.
   */
  function CheckUdemyCourses(page: CoursePage): (v: Verdict)
    ensures page.enrollment.None? ==> v == Abort(EnrollmentMissing)
    ensures page.enrollment.Some? && page.rating.None? ==> v == Skip
    ensures (page.enrollment.Some? && page.rating.Some?
      && ReviewCountToken(Original, page.rating.value).None?) ==> v == Abort(RatingMalformed(page.rating.value))
    ensures (page.enrollment.Some? && page.rating.Some?
      && ReviewCountToken(Original, page.rating.value).Some? && page.language.None?) ==> v == Abort(LanguageMissing)
    ensures v.Proceed? ==> v.layout == Original
  {
    if page.enrollment.None? then Abort(EnrollmentMissing)
    else if page.rating.None? then Skip
    else
      var rating := page.rating.value;
      match ReviewCountToken(Original, rating)
      case None => Abort(RatingMalformed(rating))
      case Some(reviews) =>
        if page.language.None? then Abort(LanguageMissing)
        else Threshold(EnrollmentToken(page.enrollment.value), reviews, page.language.value, Original)
  }

  function Check(script: Script, page: CoursePage): Verdict {
    match script
    case Udemine => CheckUdemine(page)
    case UdemyCourses => CheckUdemyCourses(page)
  }

  /** The three numbers and the layout, read without any short-circuit. */
  datatype Signals = Signals(enrolled: nat, reviews: nat, language: string, layout: Layout)

  function LayoutFor(script: Script, rating: string): Layout {
    if script == Udemine then LayoutOf(rating) else Original
  }

  /** An independent reading of the page: every element present and every count well formed. */
  function ReadSignals(script: Script, page: CoursePage): Option<Signals> {
    if page.enrollment.None? || page.rating.None? || page.language.None? then None
    else
      var layout := LayoutFor(script, page.rating.value);
      match ReviewCountToken(layout, page.rating.value)
      case None => None
      case Some(reviews) =>
        match (Counts.ParseCount(EnrollmentToken(page.enrollment.value)), Counts.ParseCount(reviews))
        case (Some(e), Some(r)) => Some(Signals(e, r, page.language.value, layout))
        case _ => None
  }

  /** Both scripts let a course through exactly when it is readable and meets every threshold. */
  lemma CheckProceedIff(script: Script, page: CoursePage)
    ensures Check(script, page).Proceed? <==>
      ReadSignals(script, page).Some? &&
      var s := ReadSignals(script, page).value;
      Eligible(s.enrolled, s.reviews, s.language)
    ensures Check(script, page).Proceed? ==> Check(script, page).layout == ReadSignals(script, page).value.layout
  {
  }

  /**
    When the check raises, read independently of the check's own branches:
    udemine.py raises only once both numbers were found, udemycourses.py also
    when the enrollment element is missing; a missing language element, a rating
    line with too few words and a count `int()` rejects raise in both.
   */
  predicate Raises(script: Script, page: CoursePage) {
    match script
    case Udemine =>
      && page.enrollment.Some? && page.rating.Some?
      && var token := ReviewCountToken(LayoutOf(page.rating.value), page.rating.value);
      || page.language.None?
      || token.None?
      || CountsRaise(EnrollmentToken(page.enrollment.value), token.value)
    case UdemyCourses =>
      || page.enrollment.None?
      || (&& page.rating.Some?
          && var token := ReviewCountToken(Original, page.rating.value);
          || token.None?
          || page.language.None?
          || CountsRaise(EnrollmentToken(page.enrollment.value), token.value))
  }

  /** The check raises exactly in the cases above; everything else is a skip or a go. */
  lemma CheckAbortIff(script: Script, page: CoursePage)
    ensures Check(script, page).Abort? <==> Raises(script, page)
  {
  }

  /** A low enrollment skips the course even when the review count would not parse. */
  lemma LowEnrollmentSkips(script: Script, page: CoursePage, e: nat)
    requires page.enrollment.Some? && page.rating.Some? && page.language.Some?
    requires ReviewCountToken(LayoutFor(script, page.rating.value), page.rating.value).Some?
    requires Counts.ParseCount(EnrollmentToken(page.enrollment.value)) == Some(e)
    requires e < MinEnrollment
    ensures Check(script, page) == Skip
  {
  }

  /** The review count of an original rating line such as "4.6 (1,234 ratings)". */
  lemma {:induction false} OriginalRatingCount(score: string, count: string, rest: seq<string>)
    requires score != [] && Text.NoSpace(score)
    requires count != [] && Text.NoSpace(count)
    requires forall i :: 0 <= i < |rest| ==> rest[i] != [] && Text.NoSpace(rest[i])
    ensures ReviewCountToken(Original, Text.Join([score, "(" + count] + rest, " ")) == Some(count)
  {
    var words := [score, "(" + count] + rest;
    assert Text.NoSpace("(" + count) by {
      assert forall i :: 1 <= i < |"(" + count| ==> ("(" + count)[i] == count[i - 1];
    }
    forall i | 0 <= i < |words| ensures words[i] != [] && Text.NoSpace(words[i]) {
      if i >= 2 { assert words[i] == rest[i - 2]; }
    }
    Text.FieldsOfJoin(words);
    assert Text.Drop("(" + count, 1) == count;
  }

  /** The review count of a revised rating line, whose last line reads like "(1,234 ratings)". */
  lemma {:induction false} RevisedRatingCount(lines: string, count: string, rest: seq<string>)
    requires count != [] && Text.NoSpace(count)
    requires forall i :: 0 <= i < |rest| ==> rest[i] != [] && Text.NoSpace(rest[i])
    ensures ReviewCountToken(Revised, lines + "\n" + Text.Join(["(" + count] + rest, " ")) == Some(count)
  {
    var words := ["(" + count] + rest;
    assert Text.NoSpace("(" + count) by {
      assert forall i :: 1 <= i < |"(" + count| ==> ("(" + count)[i] == count[i - 1];
    }
    forall i | 0 <= i < |words| ensures words[i] != [] && Text.NoSpace(words[i]) {
      if i >= 1 { assert words[i] == rest[i - 1]; }
    }
    var last := Text.Join(words, " ");
    assert '\n' !in last by {
      JoinNoNewline(words);
    }
    Text.AfterLastSeparator(lines, '\n', last);
    Text.FieldsOfJoin(words);
    assert Text.Drop("(" + count, 1) == count;
  }

  lemma {:induction false} JoinNoNewline(words: seq<string>)
    requires forall i :: 0 <= i < |words| ==> Text.NoSpace(words[i])
    ensures '\n' !in Text.Join(words, " ")
  {
    if |words| > 1 {
      JoinNoNewline(words[1..]);
      assert Text.NoSpace(words[0]);
    } else if |words| == 1 {
      assert Text.NoSpace(words[0]);
    }
  }

  /** A page in the original layout showing `students` enrolled and `ratings` reviews, the way the site writes counts. */
  function SamplePage(students: nat, ratings: nat, language: string): CoursePage {
    CoursePage(
      Some(Counts.Grouped(students) + " students"),
      Some(Text.Join(["4.6", "(" + Counts.Grouped(ratings), "ratings)"], " ")),
      Some(language))
  }

  lemma GroupedIsWord(n: nat)
    ensures Counts.Grouped(n) != [] && Text.NoSpace(Counts.Grouped(n))
  {
    Counts.GroupedChars(n);
    Counts.GroupedDigits(n);
  }

  lemma SampleEnrollment(students: nat)
    ensures EnrollmentToken(Counts.Grouped(students) + " students") == Counts.Grouped(students)
  {
    var enrolled := Counts.Grouped(students);
    GroupedIsWord(students);
    assert ' ' !in enrolled;
    Text.BeforeSeparator(enrolled, ' ', "students");
    assert enrolled + " students" == enrolled + [' '] + "students";
  }

  lemma SampleRating(ratings: nat)
    ensures var rating := Text.Join(["4.6", "(" + Counts.Grouped(ratings), "ratings)"], " ");
      LayoutOf(rating) == Original && ReviewCountToken(Original, rating) == Some(Counts.Grouped(ratings))
  {
    var count := Counts.Grouped(ratings);
    GroupedIsWord(ratings);
    assert Text.NoSpace("4.6") && Text.NoSpace("ratings)");
    OriginalRatingCount("4.6", count, ["ratings)"]);
    assert ["4.6", "(" + count] + ["ratings)"] == ["4.6", "(" + count, "ratings)"];
    assert Text.NoSpace("(" + count) by {
      var w := "(" + count;
      assert forall i :: 1 <= i < |w| ==> w[i] == count[i - 1];
    }
    JoinNoNewline(["4.6", "(" + count, "ratings)"]);
  }

  /** Both scripts decide a well-formed page by the thresholds alone. */
  lemma SamplePageVerdict(script: Script, students: nat, ratings: nat, language: string)
    ensures Check(script, SamplePage(students, ratings, language)) ==
      if Eligible(students, ratings, language) then Proceed(Original) else Skip
  {
    SampleEnrollment(students);
    SampleRating(ratings);
    Counts.ParseGrouped(students);
    Counts.ParseGrouped(ratings);
  }

  /** The boundary cases: 499 students is too few, 500 students and 50 reviews is enough, and language is decisive. */
  lemma ThresholdBoundaries(script: Script)
    ensures Check(script, SamplePage(499, 100, "English")) == Skip
    ensures Check(script, SamplePage(500, 50, "English")) == Proceed(Original)
    ensures Check(script, SamplePage(500, 49, "English")) == Skip
    ensures Check(script, SamplePage(10000, 1000, "Spanish")) == Skip
  {
    SamplePageVerdict(script, 499, 100, "English");
    SamplePageVerdict(script, 500, 50, "English");
    SamplePageVerdict(script, 500, 49, "English");
    SamplePageVerdict(script, 10000, 1000, "Spanish");
  }
}

=== FILE: outcomes.dfy ===
/**
  Failure-carrying results shared by every module of the model. A Python
  exception that the scraper lets escape is modelled as a `Failure`, and a
  value that may be absent (an element Selenium did not find, an attribute
  that is not set) as an `Option`.
 */
module Outcomes {

  datatype Option<+T> = None | Some(value: T)

  datatype Result<+R, +E> = Success(value: R) | Failure(error: E)

  /** Which of the two scripts of the repository a behaviour belongs to. */
  datatype Script = Udemine | UdemyCourses
}

=== FILE: pagination.dfy ===
/**
  The listing-page side of the crawl: which course links a results page offers
  and where, if anywhere, the next results page is.
 */
module Pagination {
  import opened Outcomes

  /**
    The next-page anchor: missing altogether, or present with the value of its
    href attribute (`None` when it has none). Both scripts read a missing anchor
    and a missing href as "no next page", but udemycourses.py reaches the two
    through different paths of `listings_page_iterator`.
   */
  datatype Anchor = Missing | Present(href: Option<string>)

  /**
    The pagination controls of a results page: the next-page anchor, and the
    class attribute of the last item of the expanded pagination list (`None`
    when there is no such item or no such attribute: both read as falsy).
   */
  datatype Pager = Pager(anchor: Anchor, lastItemClass: Option<string>) {
    /** `get_attribute("href")` of the anchor, `None` when there is no anchor to ask. */
    function NextHref(): Option<string> {
      if anchor.Present? then anchor.href else None
    }
  }

  /** A results page: the course links it shows, in order, and its pagination. */
  datatype ListingPage = ListingPage(links: seq<string>, pager: Pager)

  /** Python truthiness of an optional string: present and non-empty. */
  predicate Truthy(s: Option<string>) {
    s.Some? && s.value != ""
  }

  /**
    `get_nextpage` of udemine.py: no anchor means no next page; a marked last
    pagination item means the anchor is stale and there is no next page.
   */
  function NextPage(pager: Pager): (r: Option<string>)
    ensures r.Some? ==> r == pager.NextHref()
    ensures r.None? <==> pager.NextHref().None? || Truthy(pager.lastItemClass)
  {
    if pager.NextHref().None? then None
    else if Truthy(pager.lastItemClass) then None
    else pager.NextHref()
  }

  /** udemycourses.py reads the next-page anchor only. */
  function NextPageSimple(pager: Pager): (r: Option<string>)
    ensures r.Some? ==> pager.anchor.Present?
    ensures pager.anchor.Missing? ==> r == None
    ensures pager.anchor.Present? ==> r == pager.anchor.href
    ensures Continues(r) <==> pager.anchor.Present? && Truthy(pager.anchor.href)
  {
    pager.NextHref()
  }

  function Cursor(script: Script, pager: Pager): Option<string> {
    match script
    case Udemine => NextPage(pager)
    case UdemyCourses => NextPageSimple(pager)
  }

  /** The loop condition `while nextpage:`. */
  predicate Continues(cursor: Option<string>) {
    Truthy(cursor)
  }

  /** The two rules agree unless the last pagination item is marked, and then udemine.py stops. */
  lemma NextPageRefinesSimple(pager: Pager)
    ensures !Truthy(pager.lastItemClass) ==> NextPage(pager) == NextPageSimple(pager)
    ensures Truthy(pager.lastItemClass) ==> !Continues(NextPage(pager))
    ensures Continues(NextPage(pager)) ==> Continues(NextPageSimple(pager))
  {
  }

  /** What the crawl takes from one results page: its links and the cursor to follow. */
  datatype Step = Step(links: seq<string>, cursor: Option<string>)

  /**
    One results page as both scripts read it (the first page in `scraper`, the
    later ones in `listings_page_iterator`). When no course link is visible,
    udemine.py only looks for the next page, which is the same as scraping no
    links.
   */
  function ListingStep(script: Script, page: ListingPage): (s: Step)
    ensures s.links == page.links
    ensures s.cursor.Some? ==> s.cursor == page.pager.NextHref()
    ensures page.pager.NextHref().None? ==> !Continues(s.cursor)
    ensures Continues(s.cursor) <==>
      && page.pager.anchor.Present? && Truthy(page.pager.anchor.href)
      && (script == Udemine ==> !Truthy(page.pager.lastItemClass))
  {
    Step(page.links, Cursor(script, page.pager))
  }

  datatype UnpackError = NotEnoughValues(expected: nat, got: nat)

  /**
    `listings_page_iterator` of udemycourses.py as written: when no course link
    is visible and there is no next-page anchor it returns the pair
    `(df, courses)`, and the caller's four-name unpacking raises. An anchor
    without an href does not raise there: the code falls through and returns
    four values with no next page.
   */
  function ListingStepAsWritten(page: ListingPage): (r: Result<Step, UnpackError>)
    ensures r.Failure? <==> page.links == [] && page.pager.anchor.Missing?
  {
    if page.links == [] && page.pager.anchor.Missing? then Failure(NotEnoughValues(4, 2))
    else Success(Step(page.links, page.pager.NextHref()))
  }

  /** The input that shows the defect: an empty last page of results. */
  lemma EmptyLastPageRaises()
    ensures ListingStepAsWritten(ListingPage([], Pager(Missing, None))) == Failure(NotEnoughValues(4, 2))
    ensures ListingStep(UdemyCourses, ListingPage([], Pager(Missing, None))) == Step([], None)
    ensures ListingStepAsWritten(ListingPage([], Pager(Present(None), None))) == Success(Step([], None))
  {
  }

  /** Wherever the written code returns, the corrected step returns the same thing. */
  lemma ListingStepAgrees(page: ListingPage)
    ensures ListingStepAsWritten(page).Success? ==>
      ListingStepAsWritten(page).value == ListingStep(UdemyCourses, page)
  {
  }
}

=== FILE: query.dfy ===
/**
  The query stage: validation of the scraper's arguments and the lookup of
  the requested category (and English) among the labels of the filter panel.
 */
module Query {
  import opened Outcomes
  import Text

  /**
    A Python argument as far as the validation can tell: a string, a list of
    links, or any other value with its truthiness and whether it is iterable.
   */
  datatype PyValue = Str(s: string) | List(items: seq<string>) | Other(truthy: bool, iterable: bool)

  datatype ScrapeError =
    | SearchTermNotString
    | CategoryNotString
    | PreviousLinksNotList
    | PreviousLinksNotIterable
    | CategoryNotFound(categories: string)
    | CategoryNotListed
    | LanguageNotListed

  /** A validated call: the search, the category and the links to leave out. */
  datatype Request = Request(searchTerm: string, category: string, seed: seq<string>)

  predicate Truthy(v: PyValue) {
    match v
    case Str(s) => s != []
    case List(items) => items != []
    case Other(truthy, _) => truthy
  }

  predicate Iterable(v: PyValue) {
    v.Other? ==> v.iterable
  }

  /**
    The checks at the top of `scraper`, then `visited_links.extend(previous_links)`.
    A falsy value that is not a list passes the check; `extend` then adds
    nothing if it is iterable and raises if it is not.
   */
  function Validate(search: PyValue, category: PyValue, previous: PyValue): (r: Result<Request, ScrapeError>)
    ensures r.Success? <==>
      search.Str? && category.Str? && (previous.List? || (!Truthy(previous) && Iterable(previous)))
    ensures !search.Str? ==> r == Failure(SearchTermNotString)
    ensures search.Str? && !category.Str? ==> r == Failure(CategoryNotString)
    ensures search.Str? && category.Str? && Truthy(previous) && !previous.List? ==> r == Failure(PreviousLinksNotList)
    ensures search.Str? && category.Str? && !Truthy(previous) && !Iterable(previous) ==> r == Failure(PreviousLinksNotIterable)
    ensures r.Success? ==> r.value.searchTerm == search.s && r.value.category == category.s
    ensures r.Success? && previous.List? ==> r.value.seed == previous.items
    ensures r.Success? && !previous.List? ==> r.value.seed == []
  {
    if !search.Str? then Failure(SearchTermNotString)
    else if !category.Str? then Failure(CategoryNotString)
    else if Truthy(previous) && !previous.List? then Failure(PreviousLinksNotList)
    else if !Iterable(previous) then Failure(PreviousLinksNotIterable)
    else Success(Request(search.s, category.s, if previous.List? then previous.items else []))
  }

  /** `label.split("(")[0]`: a filter label without its trailing "(count)". */
  function LabelName(text: string): string {
    Text.Before(text, '(')
  }

  function LabelNames(labels: seq<string>): (r: seq<string>)
    ensures |r| == |labels|
    ensures forall i :: 0 <= i < |r| ==> r[i] == LabelName(labels[i])
  {
    if labels == [] then [] else [LabelName(labels[0])] + LabelNames(labels[1..])
  }

  /** Python's `list.index`: the first position holding `target`, `None` for the `ValueError`. */
  function IndexOf(names: seq<string>, target: string): (r: Option<nat>)
    ensures r.Some? ==> r.value < |names| && names[r.value] == target
    ensures r.Some? ==> forall j :: 0 <= j < r.value ==> names[j] != target
    ensures r.None? <==> target !in names
  {
    if names == [] then None
    else if names[0] == target then Some(0)
    else match IndexOf(names[1..], target)
      case None => None
      case Some(i) => Some(i + 1)
  }

  /**
    The category checkbox to mark. udemine.py (`panel_filter_add`) reports the
    labels it found, joined by ", "; udemycourses.py (`add_filter`) lets
    `list.index` raise.
   */
  function FindCategory(script: Script, labels: seq<string>, category: string): (r: Result<nat, ScrapeError>)
    ensures r.Success? ==> r.value < |labels| && LabelName(labels[r.value]) == category
    ensures r.Success? ==> forall j :: 0 <= j < r.value ==> LabelName(labels[j]) != category
    ensures r.Failure? <==> forall j :: 0 <= j < |labels| ==> LabelName(labels[j]) != category
    ensures r.Failure? && script == Udemine ==> r.error.CategoryNotFound?
  {
    var names := LabelNames(labels);
    match IndexOf(names, category)
    case Some(i) => Success(i)
    case None =>
      if script == Udemine then Failure(CategoryNotFound(Text.Join(names, ", ")))
      else Failure(CategoryNotListed)
  }

  /** The error of udemine.py names every label offered, so the caller can pick a valid one. */
  lemma CategoryErrorListsLabels(labels: seq<string>, category: string, j: nat)
    requires FindCategory(Udemine, labels, category).Failure?
    requires j < |labels|
    ensures Text.IsInfix(LabelName(labels[j]), FindCategory(Udemine, labels, category).error.categories)
  {
    Text.JoinContains(LabelNames(labels), ", ", j);
  }

  /** The English checkbox of the language panel; a missing one raises in both scripts. */
  function FindLanguage(labels: seq<string>): (r: Result<nat, ScrapeError>)
    ensures r.Success? ==> r.value < |labels| && LabelName(labels[r.value]) == "English"
    ensures r.Success? ==> forall j :: 0 <= j < r.value ==> LabelName(labels[j]) != "English"
    ensures r.Failure? <==> forall j :: 0 <= j < |labels| ==> LabelName(labels[j]) != "English"
    ensures r.Failure? ==> r.error == LanguageNotListed
  {
    match IndexOf(LabelNames(labels), "English")
    case Some(i) => Success(i)
    case None => Failure(LanguageNotListed)
  }

  /** The two checkbox positions the query stage marks: topic first, then language. */
  function ApplyFilters(script: Script, topics: seq<string>, languages: seq<string>, category: string): (r: Result<(nat, nat), ScrapeError>)
    ensures r.Success? ==> r.value.0 < |topics| && LabelName(topics[r.value.0]) == category
    ensures r.Success? ==> r.value.1 < |languages| && LabelName(languages[r.value.1]) == "English"
    ensures r.Success? <==> FindCategory(script, topics, category).Success? && FindLanguage(languages).Success?
    ensures r.Success? ==> r.value == (FindCategory(script, topics, category).value, FindLanguage(languages).value)
    ensures FindCategory(script, topics, category).Failure? ==> r == Failure(FindCategory(script, topics, category).error)
    ensures FindCategory(script, topics, category).Success? && FindLanguage(languages).Failure? ==> r == Failure(LanguageNotListed)
  {
    match FindCategory(script, topics, category)
    case Failure(e) => Failure(e)
    case Success(i) =>
      match FindLanguage(languages)
      case Failure(e) => Failure(e)
      case Success(j) => Success((i, j))
  }
}

=== FILE: reviews.dfy ===
/**
  `review_scraper`: expanding the review list, then zipping the review
  columns read from the page into rows of
  (course_link, customer_name, time_posted, review, ratings).
 */
module Reviews {
  import opened Outcomes
  import Text

  /** How many times each script presses "show more reviews" at most. */
  function ShowMoreLimit(script: Script): nat {
    match script
    case Udemine => 5
    case UdemyCourses => 10
  }

  /**
    What pressing "show more" meets on one attempt: a button that takes the
    click, no button, a button gone stale, or a click that raises (an
    exception the loop does not catch).
   */
  datatype Attempt = Clicked | NoButton | Stale | ClickRaises

  /**
    The number of successful clicks, or `None` when a click raised. The loop
    stops at the limit, at the first missing or stale button, or when the
    observed attempts run out (read as no button).
   */
  function ShowMore(limit: nat, attempts: seq<Attempt>): (r: Option<nat>)
    ensures r.Some? ==> r.value <= limit && r.value <= |attempts|
    ensures r.Some? ==> forall i :: 0 <= i < r.value ==> attempts[i] == Clicked
  {
    if limit == 0 || attempts == [] then Some(0)
    else match attempts[0]
      case Clicked =>
        (match ShowMore(limit - 1, attempts[1..])
         case Some(n) => Some(n + 1)
         case None => None)
      case NoButton => Some(0)
      case Stale => Some(0)
      case ClickRaises => None
  }

  /** The `while repeats:` loop of `review_scraper`, counting down from the script's limit. */
  method ExpandReviews(script: Script, attempts: seq<Attempt>) returns (clicks: nat, raised: bool)
    ensures raised <==> ShowMore(ShowMoreLimit(script), attempts).None?
    ensures !raised ==> ShowMore(ShowMoreLimit(script), attempts) == Some(clicks)
    ensures clicks <= ShowMoreLimit(script)
    ensures !raised && clicks < ShowMoreLimit(script) ==> clicks == |attempts| || attempts[clicks] in {NoButton, Stale}
  {
    var repeats := ShowMoreLimit(script);
    clicks := 0;
    raised := false;
    while repeats > 0
      invariant clicks + repeats == ShowMoreLimit(script)
      invariant clicks <= |attempts|
      invariant forall i :: 0 <= i < clicks ==> attempts[i] == Clicked
      invariant ShowMore(ShowMoreLimit(script), attempts) == Shift(clicks, ShowMore(repeats, attempts[clicks..]))
      decreases repeats
    {
      if clicks == |attempts| {
        break;
      }
      var attempt := attempts[clicks];
      if attempt == NoButton || attempt == Stale {
        break;
      }
      if attempt == ClickRaises {
        raised := true;
        return;
      }
      ClickedStep(repeats, attempts[clicks..]);
      assert attempts[clicks..][1..] == attempts[clicks + 1..];
      ShiftTwice(clicks, ShowMore(repeats - 1, attempts[clicks + 1..]));
      clicks := clicks + 1;
      repeats := repeats - 1;
    }
  }

  /** Adds `n` earlier clicks to a count. */
  function Shift(n: nat, r: Option<nat>): Option<nat> {
    match r
    case Some(m) => Some(n + m)
    case None => None
  }

  /** A successful click counts once and leaves one repeat fewer for the rest. */
  lemma ClickedStep(limit: nat, attempts: seq<Attempt>)
    requires limit > 0 && attempts != [] && attempts[0] == Clicked
    ensures ShowMore(limit, attempts) == Shift(1, ShowMore(limit - 1, attempts[1..]))
  {
  }

  lemma ShiftTwice(n: nat, r: Option<nat>)
    ensures Shift(n, Shift(1, r)) == Shift(n + 1, r)
  {
  }

  /** The number of leading characters of an `aria-label` that the scraper drops ("Rating: "). */
  const RatingPrefixLength: nat := 8

  /** `aria_label[8:]`: the rating text behind the "Rating: " prefix. */
  function RatingText(ariaLabel: string): (r: string)
    ensures |ariaLabel| >= RatingPrefixLength ==> ariaLabel == ariaLabel[..RatingPrefixLength] + r
    ensures |ariaLabel| <= RatingPrefixLength ==> r == []
  {
    Text.Drop(ariaLabel, RatingPrefixLength)
  }

  /** A label as the site writes it loses exactly its prefix. */
  lemma RatingTextOfLabel(rating: string)
    ensures RatingText("Rating: " + rating) == rating
  {
  }

  /** The review list as read from the page, one column per selector. */
  datatype ReviewColumns = ReviewColumns(texts: seq<string>, names: seq<string>, times: seq<string>, ariaLabels: seq<string>)

  datatype ReviewRow = ReviewRow(courseLink: string, customerName: string, timePosted: string, review: string, rating: string)

  function Min(a: nat, b: nat): nat {
    if a < b then a else b
  }

  /** The number of rows `zip` yields: the shortest column (the link column is as long as the texts). */
  function RowCount(cols: ReviewColumns): nat {
    Min(Min(|cols.texts|, |cols.names|), Min(|cols.times|, |cols.ariaLabels|))
  }

  /**
    `zip([link] * len(review), customer_name, time_posted, review, ratings)`:
    one row per position present in every column, each carrying the course link.
   */
  function Rows(link: string, cols: ReviewColumns): (rows: seq<ReviewRow>)
    ensures |rows| == RowCount(cols)
    decreases |cols.texts|
  {
    if cols.texts == [] || cols.names == [] || cols.times == [] || cols.ariaLabels == [] then []
    else
      [ReviewRow(link, cols.names[0], cols.times[0], cols.texts[0], RatingText(cols.ariaLabels[0]))]
      + Rows(link, ReviewColumns(cols.texts[1..], cols.names[1..], cols.times[1..], cols.ariaLabels[1..]))
  }

  /** Row `i` is made of entry `i` of every column. */
  lemma {:induction false} RowsAt(link: string, cols: ReviewColumns)
    ensures forall i :: 0 <= i < |Rows(link, cols)| ==>
      Rows(link, cols)[i] == ReviewRow(link, cols.names[i], cols.times[i], cols.texts[i], RatingText(cols.ariaLabels[i]))
    decreases |cols.texts|
  {
    if cols.texts != [] && cols.names != [] && cols.times != [] && cols.ariaLabels != [] {
      var rest := ReviewColumns(cols.texts[1..], cols.names[1..], cols.times[1..], cols.ariaLabels[1..]);
      RowsAt(link, rest);
      var rows := Rows(link, cols);
      forall i | 0 <= i < |rows|
        ensures rows[i] == ReviewRow(link, cols.names[i], cols.times[i], cols.texts[i], RatingText(cols.ariaLabels[i]))
      {
        if i > 0 {
          assert rows[i] == Rows(link, rest)[i - 1];
        }
      }
    }
  }

  function ReviewTexts(rows: seq<ReviewRow>): (r: seq<string>)
    ensures |r| == |rows| && forall i :: 0 <= i < |r| ==> r[i] == rows[i].review
  {
    if rows == [] then [] else [rows[0].review] + ReviewTexts(rows[1..])
  }

  function CustomerNames(rows: seq<ReviewRow>): (r: seq<string>)
    ensures |r| == |rows| && forall i :: 0 <= i < |r| ==> r[i] == rows[i].customerName
  {
    if rows == [] then [] else [rows[0].customerName] + CustomerNames(rows[1..])
  }

  function TimesPosted(rows: seq<ReviewRow>): (r: seq<string>)
    ensures |r| == |rows| && forall i :: 0 <= i < |r| ==> r[i] == rows[i].timePosted
  {
    if rows == [] then [] else [rows[0].timePosted] + TimesPosted(rows[1..])
  }

  /** Reading the rows back column by column gives each page column cut to the row count. */
  lemma RowsUnzip(link: string, cols: ReviewColumns)
    ensures var rows := Rows(link, cols);
      && ReviewTexts(rows) == cols.texts[..|rows|]
      && CustomerNames(rows) == cols.names[..|rows|]
      && TimesPosted(rows) == cols.times[..|rows|]
  {
    RowsAt(link, cols);
  }

  /** Columns of equal length lose no review. */
  lemma AlignedColumnsKeepEveryReview(link: string, cols: ReviewColumns)
    requires |cols.names| == |cols.texts| && |cols.times| == |cols.texts| && |cols.ariaLabels| == |cols.texts|
    ensures |Rows(link, cols)| == |cols.texts|
  {
  }
}

=== FILE: seqs.dfy ===
/** Facts about sequences in general, shared by the string, count and crawl modules. */
module Seqs {

  /** Concatenation regroups freely; the solver needs this step spelled out for long chains. */
  lemma Associative<T>(a: seq<T>, b: seq<T>, c: seq<T>)
    ensures a + (b + c) == (a + b) + c
  {
  }
}

=== FILE: text.dfy ===
/**
  The few Python `str` operations the scraper applies to page text, written
  out over `seq<char>`: `split(sep)[0]`, `split(sep)[-1]`, `split()`,
  `replace(c, "")`, slicing `s[n:]` and `sep.join(parts)`.
 */
module Text {
  import Seqs

  /** Python's `str.isspace` for one character: the characters `str.split()` splits on. */
  predicate IsSpace(c: char) {
    || ('\t' <= c <= '\r')
    || ('\U{1C}' <= c <= '\U{1F}')
    || c == ' '
    || c == '\U{85}'
    || c == '\U{A0}'
    || c == '\U{1680}'
    || ('\U{2000}' <= c <= '\U{200A}')
    || c == '\U{2028}'
    || c == '\U{2029}'
    || c == '\U{202F}'
    || c == '\U{205F}'
    || c == '\U{3000}'
  }

  predicate NoSpace(w: string) {
    forall i :: 0 <= i < |w| ==> !IsSpace(w[i])
  }

  /** `s.split(sep)[0]` (and `s.split(sep, 1)[0]`): the text before the first `sep`. */
  function Before(s: string, sep: char): (r: string)
    ensures r <= s
    ensures sep !in r
    ensures r == s || s[|r|] == sep
  {
    if s == [] || s[0] == sep then [] else [s[0]] + Before(s[1..], sep)
  }

  lemma {:induction false} BeforeSeparator(p: string, sep: char, q: string)
    requires sep !in p
    ensures Before(p + [sep] + q, sep) == p
  {
    if p != [] {
      assert (p + [sep] + q)[1..] == p[1..] + [sep] + q;
      BeforeSeparator(p[1..], sep, q);
    }
  }

  /** `s.split(sep)[-1]`: the text after the last `sep`, or all of `s`. */
  function AfterLast(s: string, sep: char): (r: string)
    ensures |r| <= |s| && r == s[|s| - |r|..]
    ensures sep !in r
    ensures r == s || s[|s| - |r| - 1] == sep
  {
    if s == [] || s[|s| - 1] == sep then [] else AfterLast(s[..|s| - 1], sep) + [s[|s| - 1]]
  }

  lemma {:induction false} AfterLastSeparator(p: string, sep: char, q: string)
    requires sep !in q
    ensures AfterLast(p + [sep] + q, sep) == q
    decreases |q|
  {
    var s := p + [sep] + q;
    if q == [] {
      assert s[|s| - 1] == sep;
    } else {
      assert s[..|s| - 1] == p + [sep] + q[..|q| - 1];
      AfterLastSeparator(p, sep, q[..|q| - 1]);
      assert q[..|q| - 1] + [q[|q| - 1]] == q;
    }
  }

  /** `s.replace(c, "")` for a one-character `c`. */
  function Without(s: string, c: char): (r: string)
    ensures c !in r
    ensures c !in s ==> r == s
  {
    if s == [] then []
    else (if s[0] == c then [] else [s[0]]) + Without(s[1..], c)
  }

  /** Removing `c` keeps every other character and nothing else. */
  lemma {:induction false} WithoutMembers(s: string, c: char)
    ensures forall x :: x in Without(s, c) <==> x in s && x != c
  {
    if s != [] {
      WithoutMembers(s[1..], c);
      assert forall x :: x in s <==> x == s[0] || x in s[1..];
    }
  }

  lemma {:induction false} WithoutAppend(a: string, b: string, c: char)
    ensures Without(a + b, c) == Without(a, c) + Without(b, c)
  {
    if a == [] {
      assert a + b == b;
    } else {
      var head := if a[0] == c then [] else [a[0]];
      assert (a + b)[0] == a[0];
      assert (a + b)[1..] == a[1..] + b;
      assert Without(a + b, c) == head + Without(a[1..] + b, c);
      var rest, tail := Without(a[1..], c), Without(b, c);
      WithoutAppend(a[1..], b, c);
      assert Without(a + b, c) == head + (rest + tail);
      assert Without(a, c) == head + rest;
      Seqs.Associative(head, rest, tail);
    }
  }

  /** Python's slice `s[n:]`, which is empty (not an error) when `n` is past the end. */
  function Drop(s: string, n: nat): (r: string)
    ensures |r| == if n < |s| then |s| - n else 0
    ensures forall i :: 0 <= i < |r| ==> r[i] == s[n + i]
  {
    if n < |s| then s[n..] else []
  }

  /** The longest prefix of `s` with no whitespace. */
  function Word(s: string): (r: string)
    ensures r <= s
    ensures NoSpace(r)
    ensures r == s || IsSpace(s[|r|])
  {
    if s == [] || IsSpace(s[0]) then [] else [s[0]] + Word(s[1..])
  }

  /** `s.split()`: the maximal runs of non-whitespace characters, in order. */
  function Fields(s: string): (r: seq<string>)
    ensures forall i :: 0 <= i < |r| ==> r[i] != [] && NoSpace(r[i])
    decreases |s|
  {
    if s == [] then []
    else if IsSpace(s[0]) then Fields(s[1..])
    else
      var w := Word(s);
      [w] + Fields(s[|w|..])
  }

  /** `sep.join(parts)`. */
  function Join(parts: seq<string>, sep: string): (r: string)
    ensures |parts| == 1 ==> r == parts[0]
  {
    if parts == [] then []
    else if |parts| == 1 then parts[0]
    else parts[0] + sep + Join(parts[1..], sep)
  }

  /** `p` occurs in `s` starting at offset `k`. */
  predicate OccursAt(p: string, s: string, k: nat) {
    k + |p| <= |s| && s[k..k + |p|] == p
  }

  predicate IsInfix(p: string, s: string) {
    exists k: nat | k <= |s| :: OccursAt(p, s, k)
  }

  lemma {:induction false} WordOf(w: string, rest: string)
    requires w != [] && NoSpace(w)
    requires rest == [] || IsSpace(rest[0])
    ensures Word(w + rest) == w
  {
    if |w| == 1 {
      assert (w + rest)[1..] == rest;
    } else {
      assert (w + rest)[1..] == w[1..] + rest;
      WordOf(w[1..], rest);
    }
  }

  /** Splitting words that were joined by single spaces gives the words back. */
  lemma {:induction false} FieldsOfJoin(words: seq<string>)
    requires forall i :: 0 <= i < |words| ==> words[i] != [] && NoSpace(words[i])
    ensures Fields(Join(words, " ")) == words
  {
    if words == [] {
    } else if |words| == 1 {
      var w := words[0];
      WordOf(w, []);
      assert w + [] == w;
      assert w[|w|..] == [];
    } else {
      var w := words[0];
      var rest := Join(words[1..], " ");
      var s := w + " " + rest;
      assert s == w + (" " + rest);
      WordOf(w, " " + rest);
      assert s[|w|..] == " " + rest;
      assert (" " + rest)[1..] == rest;
      FieldsOfJoin(words[1..]);
      assert Fields(s) == [w] + Fields(" " + rest);
    }
  }

  /** Every part appears, verbatim, in the joined text. */
  lemma {:induction false} JoinContains(parts: seq<string>, sep: string, j: nat)
    requires j < |parts|
    ensures IsInfix(parts[j], Join(parts, sep))
  {
    var s := Join(parts, sep);
    if |parts| == 1 {
      assert OccursAt(parts[0], s, 0);
    } else if j == 0 {
      assert s == parts[0] + sep + Join(parts[1..], sep);
      assert OccursAt(parts[0], s, 0);
    } else {
      var tail := Join(parts[1..], sep);
      JoinContains(parts[1..], sep, j - 1);
      assert parts[1..][j - 1] == parts[j];
      var k: nat :| k <= |tail| && OccursAt(parts[j], tail, k);
      var off := |parts[0]| + |sep|;
      assert s == parts[0] + sep + tail;
      assert s[off + k..off + k + |parts[j]|] == tail[k..k + |parts[j]|];
      assert OccursAt(parts[j], s, off + k);
    }
  }
}
